=== FILE: README.md ===
# personal-blog: a Dafny model of its request and persistence logic

This project models the server-side core of a small Next.js blog backed by
MongoDB through Mongoose. It covers four parts:

- **Articles** (`Slug`, `ArticleModel`). Schema validation comes first.
  Then the two `pre('save')` hooks run: one turns the title into a slug or
  uses the `article-<ts>-<rand>` fallback, and the other probes for a free
  `base-k`. Last comes the unique slug index. The collection is a finite map
  from article id to article.
- **Admin sessions** (`SessionModel`, `Auth`, `LoginRoute`). The store is a
  finite map from session id to record. It supports:
  - create, which removes the user's old sessions and then inserts one;
  - validate, extend, delete and reap;
  - the record validators, including the IPv4/IPv6 regexes exactly as
    written;
  - the login endpoint, which checks the credentials and then creates a
    24-hour `admin` session and its cookie.
- **Route decisions** (`Middleware`, `ArticlesRoute`):
  - the three authentication wrappers and the current-user lookup;
  - `GET /api/articles`: `parseInt` and clamping of `limit`/`page`, the
    visibility filter, the search term and the pagination metadata;
  - `POST /api/articles`: the ordered input checks, the document it builds,
    and the error-to-status mapping.
- **Client form validation** (`FormValidation`). `validateForm`,
  `hasValidationErrors` and `getFirstError`.

Supporting modules:
- `Wrappers`: `Option`, `Result`.
- `Text`: the JavaScript white-space set and `trim`, string length in
  UTF-16 code units, ASCII case mapping, radix digits and hex text.
- `NumberText`: `parseInt` without a radix.
- `JsonValues`: request bodies and JavaScript truthiness.
- `Checks`: "the first failing check wins".

The clock (`Date.now()`), `Math.random`, `crypto.randomBytes`, the
environment variables and date-string parsing are parameters. Times are
integer milliseconds. Every store operation is a pure function from the old
store to the new store and a result.

## Model

| member | source | states |
|---|---|---|
| Slug.Normalise | src/lib/models/Article.ts:70-75 | The title pipeline always yields text over `[a-z0-9-]`, with no leading, trailing or doubled hyphen. |
| Slug.NormaliseIdempotent | src/lib/models/Article.ts:70-75 | Normalising a slug a second time changes nothing. |
| Slug.NormaliseFixesNormalSlug | src/lib/models/Article.ts:70-75 | Any text already in slug shape is a fixed point of the pipeline, including text that already passes the schema's `match` validator. |
| Slug.Fallback | src/lib/models/Article.ts:78-80 | The fallback slug is non-empty, starts with `article-`, and stays inside `[a-z0-9-]`. |
| Slug.BaseSlug | src/lib/models/Article.ts:69-82 | The base is the normalised title when that is non-empty, and otherwise the fallback. Either way it is a non-empty slug-charset string. |
| Slug.Candidate | src/lib/models/Article.ts:96-100 | `base-k` keeps the slug character set. |
| Slug.CandidateInjective | src/lib/models/Article.ts:96-100 | Different counters give different candidates, so each probe step asks about a new slug. |
| Slug.CandidateDiffersFromBase | src/lib/models/Article.ts:96-100 | No suffixed candidate equals the base itself. |
| Slug.ProbeFrom | src/lib/models/Article.ts:95-103 | The counter loop stops at the least `k` whose `base-k` no stored article holds. It stops within the number of stored slugs plus one. |
| Slug.LeastFreeUnique | src/lib/models/Article.ts:98-101 | The least free counter is unique, so the probe's answer is determined by the store. |
| ArticleModel.ValidationErrors | src/lib/models/Article.ts:13-42 | The document is rejected exactly when one of these holds: the trimmed title is empty or longer than 200 UTF-16 code units; a slug already set leaves `[a-z0-9-]`; the content is empty; the publication date is later than now. The title, slug, content and date errors are each reported exactly when their condition holds. |
| ArticleModel.SlugAfterHooks | src/lib/models/Article.ts:68-106 | The title's base slug replaces the held one exactly when the title was modified or no slug was set. The slug is probed exactly when its path was modified or the first hook changed it. A slug that differs from the held one is never another article's. |
| ArticleModel.ResolveSlug | src/lib/models/Article.ts:87-106 | A base that no other article holds is kept. A taken base becomes `base-k` for the least `k` free among all stored slugs, including the article's own, with `k` at most the store size plus one. The result is never held by another article. |
| ArticleModel.Save | src/lib/models/Article.ts:13-106 | Validation runs first, on the slug before the hooks. A saved article is the only record that changes. It holds the trimmed title and the given content, date and flag, and a slug held by no other article. |
| ArticleModel.SaveWithoutSlugSucceeds | src/lib/models/Article.ts:68-106 | A new document without a slug is saved exactly when its fields are acceptable. The generated slug never trips the unique index. |
| ArticleModel.SavePreservesInvariant | src/lib/models/Article.ts:21-27 | From a store whose slugs are unique and well formed, a save never hits the duplicate-key error. It succeeds exactly when the fields are acceptable, and it keeps slugs unique and well formed. |
| ArticleModel.UpdateKeepsInvariant | src/lib/models/Article.ts:21-27 | Writing an article whose slug is well formed and held by no other article keeps the uniqueness invariant. |
| ArticleModel.SaveKeepsSlugWhenTitleUnchanged | src/lib/models/Article.ts:68-69 | A save that touches neither title nor slug keeps the existing slug. Neither hook changes it. |
| ArticleModel.EditingBodyKeepsSlug | src/lib/models/Article.ts:87-88 | Reloading an article and changing only content or the publish flag leaves its slug as stored. |
| ArticleModel.SaveKeepsFreeBase | src/lib/models/Article.ts:89-94 | When no other article holds the base slug, the base itself is stored. |
| ArticleModel.SaveProbesTakenBase | src/lib/models/Article.ts:94-103 | When another article holds the base, the stored slug is `base-k` for the least `k` free in the whole store, with `k` at most the store size plus one. |
| ArticleModel.SaveTakesLeastFreeCandidate | src/lib/models/Article.ts:94-103 | Given the least free counter, the stored slug is exactly that candidate. |
| ArticleScenarios.SameTitleNormalises | src/lib/models/Article.ts:70-75 | `"Same Title"` becomes `same-title`. |
| ArticleScenarios.ThreeSavesOfOneTitle | src/lib/models/Article.ts:87-106 | Three new articles with one title are stored as the base, `base-1` and `base-2`, for any title whose slug is non-empty. |
| ArticleScenarios.SameTitleThreeTimes | src/lib/models/Article.ts:68-106 | Three saves of "Same Title" give `same-title`, `same-title-1` and `same-title-2`. |
| SessionModel.NewSession | src/lib/models/AdminSession.ts:21-41 | A missing user id defaults to `admin`. `lastAccessedAt` starts at now. |
| SessionModel.IsExpired | src/lib/models/AdminSession.ts:82-84 | An expired session is not live, and one that is not expired is live unless it expires at this very instant. |
| SessionModel.LiveExpiredBoundary | src/lib/models/AdminSession.ts:81-84 | No session is both live and expired. A session is neither exactly when it expires at this instant. |
| SessionModel.TimeUntilExpiration | src/lib/models/AdminSession.ts:86-91 | The remaining time is never negative. It is 0 exactly for a session that is no longer live, and otherwise reaches the expiry when added to now. |
| SessionModel.Extend | src/lib/models/AdminSession.ts:93-98 | The new expiry is `hours` hours after now, whatever the old one was. `lastAccessedAt` becomes now. Owner, address and agent are kept. |
| SessionModel.CleanupExpired | src/lib/models/AdminSession.ts:100-103 | Exactly the sessions that expired strictly before now are removed. The others are unchanged. |
| SessionModel.OctetPatternMeansByte | src/lib/models/AdminSession.ts:53 | One IPv4 group of the regex is 1 to 3 decimal digits whose value is at most 255, with leading zeros allowed. The converse also holds. |
| SessionModel.Ipv4PatternMeansDottedQuad | src/lib/models/AdminSession.ts:52-54 | The IPv4 regex accepts exactly four dot-separated such groups. |
| SessionModel.Ipv6PatternMeansColonGroups | src/lib/models/AdminSession.ts:56-58 | The IPv6 regex accepts exactly 3 to 8 colon-separated pieces of 0 to 4 hex digits each, that is 2 to 7 colons. |
| SessionModel.IpAddressAcceptedMeans | src/lib/models/AdminSession.ts:42-58 | After trimming, an address is accepted exactly when it is empty, a localhost spelling, four dot-separated byte values, or 3 to 8 colon-separated pieces of at most four hex digits. |
| SessionModel.IpAcceptedUnderTrim | src/lib/models/AdminSession.ts:42-47 | The address validator gives the same verdict before and after the schema's `trim`. |
| SessionModel.SessionErrors | src/lib/models/AdminSession.ts:13-67 | A record passes validation exactly when all of these hold: its fields are valid (trimmed id of at least 10 UTF-16 code units, non-empty owner, accepted address, agent of at most 500 code units) and it expires strictly after now. Each field's error is reported exactly when that field's condition fails. |
| SessionModel.SaveExisting | src/lib/models/AdminSession.ts:13-67 | Saving a loaded record re-runs every validator. It writes only that record and only when the record passes. |
| SessionModel.ExtendKeepsStaticFields | src/lib/models/AdminSession.ts:93-98 | Extending keeps the static fields valid. The new expiry is in the future exactly when `hours` is positive. |
| SessionModel.CleanupKeepsWellFormed | src/lib/models/AdminSession.ts:100-103 | Reaping keeps every remaining record valid. |
| Auth.GenerateSessionId | src/lib/auth.ts:179-186 | Ids are `<base36 time>_<64 hex digits>`: at least 66 characters, no white space, so always above the 10-character minimum. The text before the last underscore is the clock in base 36, and the hex digits decode back to the random bytes. |
| Auth.SessionIdInjective | src/lib/auth.ts:179-186 | Two ids are equal exactly when they come from the same instant and the same random bytes. |
| Auth.Lifetime | src/lib/auth.ts:25-26 | A missing or zero `expirationHours` means 24 hours; otherwise it is that many hours. The lifetime is positive exactly when the hours are not negative. |
| Auth.DeleteAllUserSessions | src/lib/auth.ts:90-93 | Exactly the given user's sessions are removed. The others are unchanged. |
| Auth.CreateSession | src/lib/auth.ts:18-40 | On success the id is the generated one, and the user then holds exactly that new session, with the computed expiry. Other users' sessions are unchanged, nothing else appears, and valid records stay valid. |
| Auth.CreateSessionSucceedsWhen | src/lib/auth.ts:18-40 | Creation succeeds exactly when all of these hold: the lifetime is positive; the options pass the validators; the new id is not held by another user's session. |
| Auth.CreatedSessionIsLive | src/lib/auth.ts:24-37 | A created session belongs to the trimmed user, expires `Lifetime` after now, and is live. |
| Auth.NegativeLifetimeFailsClosed | src/lib/auth.ts:25-37 | A negative lifetime makes the insert fail, but only after all the user's sessions were deleted. The user is left with none. |
| Auth.ValidateSession | src/lib/auth.ts:42-62 | An empty, unknown or expired id gives `null` and changes nothing. A live one gives the fixed admin principal and updates only that session's `lastAccessedAt`. |
| Auth.ValidateOnWellFormed | src/lib/auth.ts:42-62 | On a store of valid records, validation never throws. It returns the admin exactly when the id names a live session. |
| Auth.ExtendSession | src/lib/auth.ts:64-81 | An empty, unknown or expired id gives `false` and changes nothing. Otherwise only that session is re-timed, to `hours` (default 24) after now. On a valid record it answers `true` exactly when `hours` is positive. |
| Auth.ExtendCountsFromNow | src/lib/auth.ts:64-81 | A successful extension sets the expiry to now plus `hours`. |
| Auth.DeleteSession | src/lib/auth.ts:83-88 | Only the named record is removed. An empty id is a no-op. |
| Auth.DeleteSessionIdempotent | src/lib/auth.ts:83-88 | Deleting twice is the same as deleting once. |
| Auth.CleanupExpiredSessions | src/lib/auth.ts:95-101 | Exactly the sessions that expired strictly before now are removed. The returned count is their number, and it plus the survivors equals the old size. |
| Auth.ExpiryInstantIsLimbo | src/lib/auth.ts:42-101 | A session expiring exactly now is not validated, not extended and not reaped. |
| Auth.SecondLoginRevokesFirst | src/lib/auth.ts:18-62 | After two creations for one user, at different instants or from different random bytes, the first token no longer validates, while the second does until it expires. |
| Auth.OrElse | src/lib/auth.ts:157-158 | An unset or empty environment variable falls back to the default. |
| Auth.ValidateCredentials | src/lib/auth.ts:156-161 | A pair is accepted exactly when both parts equal the configured ones. |
| Auth.CredentialsFromEnvironment | src/lib/auth.ts:156-161 | With both variables set and non-empty, exactly their pair is accepted, whatever the defaults are. With both unset or empty, exactly the default pair is. |
| Auth.NoEmptyCredentials | src/lib/auth.ts:156-161 | With non-empty defaults, an accepted pair is never empty. |
| LoginRoute.Refusal | src/app/api/auth/login/route.ts:7-30 | Each status has exactly one cause. 500 means a body that cannot be read or destructured. 400 means a readable body whose name or password is missing or falsy. 401 means both are truthy but not the configured pair as strings. The request passes exactly when it names the configured pair with truthy values. |
| LoginRoute.IssueSession | src/app/api/auth/login/route.ts:33-59 | The store is the one `createSession` leaves. The answer is 200 with a cookie naming the new id exactly when the creation succeeded, and 500 otherwise. |
| LoginRoute.Login | src/app/api/auth/login/route.ts:5-71 | The status is one of 200, 400, 401 or 500. Only 200 carries a cookie and `success`. A 400 or 401 leaves the sessions alone. A 200 implies the configured pair was sent. |
| LoginRoute.MissingFieldIsBadRequest | src/app/api/auth/login/route.ts:10-19 | A readable body with a missing or falsy name or password (`null`, `false`, `0`, `""`) is a 400 with no store change. This includes a body that is not an object. |
| LoginRoute.WrongPasswordIsUnauthorized | src/app/api/auth/login/route.ts:21-30 | Two truthy values that are not the configured pair give 401 with no store change. |
| LoginRoute.LoginDispatch | src/app/api/auth/login/route.ts:5-71 | The route answers with its refusal when there is one, and otherwise with the session issue. |
| LoginRoute.LoginReplacesAdminSession | src/app/api/auth/login/route.ts:36-50 | A successful login leaves exactly one `admin` session: the cookie's id, expiring 86 400 s after now, which is the cookie's max age. Every other user's sessions are untouched. |
| LoginRoute.RejectedAddressLogsEveryoneOut | src/app/api/auth/login/route.ts:33-40 | A correct login from an address the validator refuses gives 500, after every admin session has been deleted. |
| Middleware.CurrentUser | src/lib/auth.ts:103-115 | No cookie or an empty one means no user. Otherwise the result is the session validation's. A user comes only from a live session and is always the admin. |
| Middleware.WithAuth | src/lib/middleware.ts:15-42 | The handler runs exactly when there is a user, and it is told that user. No user gives 401. A lookup that throws gives 500. |
| Middleware.WithOptionalAuth | src/lib/middleware.ts:48-70 | The handler always runs. It is told the user, or nothing when there is none or the lookup threw. |
| Middleware.WithAdminAuth | src/lib/middleware.ts:76-110 | The handler runs exactly for a user whose role is `admin`. Otherwise the answer is 401 (no user), 403 (another role) or 500 (a throw). |
| Middleware.RefusalIgnoresHandler | src/lib/middleware.ts:19-40 | A refusal does not depend on the handler. |
| Middleware.AdminRefinesAuth | src/lib/middleware.ts:76-110 | The admin wrapper answers like the plain one except exactly for a non-admin user. |
| Middleware.OptionalAgreesWhenAuthenticated | src/lib/middleware.ts:48-70 | When the plain wrapper admits a request, the optional one answers the same. Where the plain one refuses, the optional one runs the handler with no user. |
| Middleware.SessionUsersPassAdminCheck | src/lib/middleware.ts:90-95 | For users obtained from sessions, the 403 branch is unreachable. |
| Middleware.WellFormedStoreNeverFails | src/lib/middleware.ts:18-41 | With valid session records, the answer is never 500. The handler runs exactly when the cookie names a live session. |
| NumberText.ParseInt | src/app/api/articles/route.ts:13-14 | A number is read only from text that holds a digit. It is negative only after a leading minus sign. |
| NumberText.ParseIntReadsLeadingInteger | src/app/api/articles/route.ts:13-14 | `parseInt` reads back the decimal text of any integer, stopping at the first non-digit. |
| NumberText.ParseIntNeedsDigits | src/app/api/articles/route.ts:13-14 | Text without digits parses to `NaN`. |
| ArticlesRoute.ListError | src/app/api/articles/route.ts:83-105 | `ValidationError` gives 400. A Mongo network or server error gives 503. Anything else gives 500. |
| ArticlesRoute.CreateError | src/app/api/articles/route.ts:201-233 | `ValidationError` gives 400. Code 11000 gives 409, tested before the Mongo-name test. Other Mongo errors give 503. Anything else gives 500. |
| ArticlesRoute.StatusMapsDifferOnlyOnDuplicateKey | src/app/api/articles/route.ts:213-227 | The two handlers map an error differently exactly for a duplicate key. A slug collision is 409 on create and would be 503 on listing. |
| ArticlesRoute.ParamOr | src/app/api/articles/route.ts:13-14 | An absent or empty query parameter takes its default text. |
| ArticlesRoute.PageLimit | src/app/api/articles/route.ts:13 | The limit lies in [1, 100] unless `parseInt` gives `NaN`, which survives the clamp. A parsed 10 stays 10. |
| ArticlesRoute.LimitClamps | src/app/api/articles/route.ts:13 | A parsed value becomes the limit in [1, 100] nearest to it: no allowed limit is closer. A value already in range is kept. |
| ArticlesRoute.PageNumber | src/app/api/articles/route.ts:14 | The page is at least 1 unless it is `NaN`. |
| ArticlesRoute.DefaultWindow | src/app/api/articles/route.ts:13-15 | With no parameters the limit is 10, the page is 1 and the skip is 0. |
| ArticlesRoute.Skip | src/app/api/articles/route.ts:15 | The skip is not negative, and the skip plus one page's limit ends where the requested page ends. |
| ArticlesRoute.CeilDiv | src/app/api/articles/route.ts:58 | The page count is the least number of pages of `limit` that hold `total`. |
| ArticlesRoute.PageInfo | src/app/api/articles/route.ts:58-60 | The metadata echoes total, page and limit. `hasPrevious` holds exactly for a page past 1. |
| ArticlesRoute.HasMoreMeansArticlesBeyondPage | src/app/api/articles/route.ts:58-59 | `hasMore` holds exactly when some article lies beyond the requested page. |
| ArticlesRoute.TotalPagesCoverArticles | src/app/api/articles/route.ts:58 | The pages cover all articles, the last one is non-empty, and there are none exactly when there are no articles. |
| ArticlesRoute.VisibilityFilter | src/app/api/articles/route.ts:28-36 | Guests always get published-only. An admin gets published-only exactly for `true`, drafts-only exactly for `false`, and otherwise no filter. |
| ArticlesRoute.GuestsSeeOnlyPublished | src/app/api/articles/route.ts:33-36 | Whatever `published` says, a guest's filter admits exactly the published articles. |
| ArticlesRoute.AdminSeesWhatIsAsked | src/app/api/articles/route.ts:29-36 | An admin's filter admits an article exactly when it matches the requested state. |
| ArticlesRoute.SearchTerm | src/app/api/articles/route.ts:39-44 | A search term is used exactly when it is non-blank, and then in trimmed form. |
| ArticlesRoute.ListArticles | src/app/api/articles/route.ts:6-82 | A lookup that throws gives its error reply. Otherwise the listing succeeds exactly when counting its query succeeds, and a failed count gives that error's reply. The query's visibility, search term, skip and limit come from the parameters and the caller; a guest's query is published-only. The pagination is built from the count of that same query, and `hasMore` holds exactly when articles lie beyond the page. |
| ArticlesRoute.ListingHidesDraftsFromGuests | src/app/api/articles/route.ts:21-36 | A listing for a non-admin never admits a draft. |
| ArticlesRoute.ReadArticleInput | src/app/api/articles/route.ts:121-180 | A body that is not JSON is refused first, with 400 `Invalid JSON in request body`. A refusal is a 400, or a 500 exactly for a `null` body. An accepted body yields a non-empty trimmed title and a non-empty content, and its date is not in the future. |
| ArticlesRoute.BodyRefusedByFirstFailingCheck | src/app/api/articles/route.ts:134-178 | A body is refused exactly when one of the checks fails, with the first failing check's reply. The checks run in this order: title, content, boolean flag, date format, future date. |
| ArticlesRoute.AcceptedBodyFields | src/app/api/articles/route.ts:132-180 | Title and content are the trimmed inputs. The flag defaults to `false`. A date is taken exactly when one was supplied and truthy, and it is the parsed one. |
| ArticlesRoute.CreateArticle | src/app/api/articles/route.ts:108-233 | A failure changes nothing. A lookup that throws is mapped by the handler's `catch`. A non-admin gets 401 whatever the body. An admin's refused body gets the reply of the first failing check. A created article is stored under its new id, and only after the admin check and body checks passed. |
| ArticlesRoute.SaveInput | src/app/api/articles/route.ts:182-184 | The stored article carries the trimmed title, the content, the flag, and the supplied date or now. |
| ArticlesRoute.CreatedArticleFields | src/app/api/articles/route.ts:157-198 | The created article carries exactly the accepted input, with now as the default date. |
| ArticlesRoute.CreateRefusesGuestsBeforeReading | src/app/api/articles/route.ts:110-117 | For a non-admin, the body makes no difference: the answer is 401. |
| ArticlesRoute.CreateNeverConflicts | src/app/api/articles/route.ts:182-219 | For an admin, on a consistent store and a fresh id, an accepted body is created exactly when its title fits 200 UTF-16 code units. Otherwise the answer is 400 "Validation failed", never 409. A creation keeps slugs unique. |
| Text.Capitalize | src/utils/validation.ts:26 | Only the first character is upper-cased, and the length is kept. |
| Text.TrimEmptyIffAllSpace | src/utils/validation.ts:22-25 | A trimmed value is empty exactly when the raw one is all white space. |
| Text.TrimIdempotent | src/lib/models/Article.ts:17 | Trimming twice is trimming once. |
| Text.JsLengthAppend | src/lib/models/Article.ts:20 | The UTF-16 length of joined text is the sum of the lengths. |
| Text.JsLengthIsSizeIffBasicPlane | src/lib/models/Article.ts:20 | The UTF-16 length equals the number of characters exactly when no character lies beyond U+FFFF. |
| Text.IntToRadixInjective | src/lib/auth.ts:182 | Different instants give different base-36 texts. |
| Text.HexRoundTrip | src/lib/auth.ts:183 | Decoding the hex text of some bytes gives the bytes back. |
| FormValidation.FieldValue | src/utils/validation.ts:21-22 | A field that is not one of the form's own keys reads as `""` (inherited names are left out, see below). The checked value is empty exactly when the field is missing or all white space. |
| FormValidation.CustomError | src/utils/validation.ts:53-60 | A custom check counts only when it returns a non-empty message. |
| FormValidation.FieldError | src/utils/validation.ts:24-60 | A blank value has an error exactly when the field is required. Any error is a non-empty message. Length bounds count UTF-16 code units. |
| FormValidation.ValidateForm | src/utils/validation.ts:17-64 | The result names only fields that have rules, with at most one entry per rule. |
| FormValidation.ValidateFormLoop | src/utils/validation.ts:17-64 | The `for … of` loop walks the rules forward and appends each failing field's entry. It builds the same error object as the fold. |
| FormValidation.ValidateFormAppend | src/utils/validation.ts:20-61 | Validating two lists of rules in turn gives the two error lists one after the other. |
| FormValidation.ErrorsAreFailingFields | src/utils/validation.ts:20-61 | With distinct field names, an entry `(field, message)` appears exactly when that field's rule fails with that message. |
| FormValidation.OneErrorPerField | src/utils/validation.ts:25-60 | With distinct field names, no field gets two errors. |
| FormValidation.FieldErrorIsFirstFailingCheck | src/utils/validation.ts:24-60 | A field's error is the first failing check, in the order required, minLength, maxLength, pattern, custom. |
| FormValidation.ZeroBoundsImposeNothing | src/utils/validation.ts:35-45 | A bound of 0 behaves exactly like a missing bound. |
| FormValidation.BlankFields | src/utils/validation.ts:24-33 | A blank required field gets `<Field> is required`. A blank optional field gets no error. |
| FormValidation.HasValidationErrors | src/utils/validation.ts:66-68 | The form has errors exactly when the error object has some key. |
| FormValidation.HasErrorsIffSomeFieldFails | src/utils/validation.ts:66-68 | The form has errors exactly when some rule's field fails. |
| FormValidation.GetFirstError | src/utils/validation.ts:70-73 | As written, any message it returns is the first entry's, but it can also return `null` for a non-empty error object. |
| FormValidation.GetFirstErrorMissesUnnamedField | src/utils/validation.ts:70-73 | A required field named `""` with no data has an error, yet `getFirstError` reports none. |
| FormValidation.GetFirstErrorDiffers | src/utils/validation.ts:70-73 | The as-written and corrected readers differ exactly when the first failing field is named `""`. |
| FormValidation.FirstError | src/utils/validation.ts:70-73 | `null` exactly when there are no errors; otherwise the earliest-inserted message. |
| FormValidation.FirstErrorIsEarliestFailure | src/utils/validation.ts:70-73 | The first error is the message of the earliest rule whose field fails, and every earlier field passes. |

## Left out

- Connection handling (`connectDB`), the TTL index, `timestamps`/`updatedAt` and the `pre('findOne')` hook: these are storage plumbing. Mongoose is a finite map with a unique key.
- Concurrency: the read-then-write slug probe and concurrent session writes are modelled as sequential steps.
- Nondeterminism: `Date.now()`, `Math.random()` and `crypto.randomBytes` are parameters (`now`, `timestamp`, `tag`, `entropy`). Session ids are assumed fresh only where a lemma says so. A new article's id stands for a fresh `ObjectId`: `ArticlesRoute.CreateArticle` given an id already stored overwrites that article, where MongoDB would raise a duplicate key on `_id` and the handler would answer 409.
- Unicode: lengths count UTF-16 code units, as JavaScript's `length` does, but `toLowerCase`/`toUpperCase` map ASCII letters only. A non-ASCII title is then stripped by the slug pipeline as if it had no lower-case form. `Text.Capitalize` upper-cases only ASCII.
- Date strings: `new Date(publishedDate)` is the `parseDate` parameter, with `None` for an invalid date. Dates are integer milliseconds.
- Fractional numbers: these are integers in the model, where JavaScript has a `number`: JSON numbers, `parseInt` results, the `hours` of `SessionModel.Extend` and `Auth.ExtendSession`, the `expirationHours` of `Auth.Lifetime`, and the form rules' `minLength`/`maxLength`. Every caller passes integers. `parseInt` precision beyond 2^53 is not modelled.
- ArticlesRoute.PageLimit: a `NaN` from `parseInt` is carried as `None`, so the pagination built from it holds `None` where JavaScript would serialise `null`.
- The `$regex` search: the filter is the trimmed term only. Matching titles and contents is a foreign regex engine.
- Sorting, `skip`/`limit` on the result set, field selection and the JSON serialisation of responses: the listing is modelled by its query and the count.
- `RegExp.test` state: a `pattern` is a pure predicate. A global regex's `lastIndex` is not modelled.
- `getSessionInfo`, `getClientInfo`, the cookie reading and setting, and the logout and session routes: these are glue. The client address and agent are inputs to the login model.
- The login route's `GET`, `PUT` and `DELETE` handlers: they answer a constant 405.
- Locale date formatting (`formattedDate`) and the `toJSON` virtuals: presentation only.
- FormValidation.FieldValue: `data` is a map of its own keys only. In JavaScript, `data[field]` also finds members inherited from `Object.prototype`. A rule for `constructor`, `toString`, `hasOwnProperty` or `__proto__` with no such key in `data` would read a truthy non-string, and `.trim()` would throw a `TypeError` out of `validateForm`. The model reads such a field as missing, so `""`, and that throw is not modelled.

## Findings

| source | as written | input that shows it | evidently intended | confidence | as-written member | corrected member |
|---|---|---|---|---|---|---|
| src/utils/validation.ts:70-73 | `getFirstError` tests the first key for truthiness, so an error under the key `""` is reported as no error | rules `{ "": { required: true } }` and data `{}` give errors `{ "": " is required" }`: `hasValidationErrors` is true, `getFirstError` is `null` | `null` only when there are no errors; otherwise the first message | not executed | FormValidation.GetFirstErrorMissesUnnamedField | FormValidation.FirstErrorIsEarliestFailure |

=== FILE: article_model.dfy ===
/** The Article document model: schema validators, the two `pre('save')`
    hooks and the unique index on `slug` (src/lib/models/Article.ts). The
    collection is a finite map from document id to article. */
module ArticleModel {
  import opened Wrappers
  import opened Text
  import opened Slug

  type ArticleId = nat

  datatype Article = Article(
    title: string,
    slug: string,
    content: string,
    publishedDate: int,
    isPublished: bool)

  type ArticleStore = map<ArticleId, Article>

  /** A document at the moment `save()` is called: its current field values
      (the empty slug standing for an unset one) and whether Mongoose has the
      `title` and `slug` paths marked as modified. */
  datatype ArticleDoc = ArticleDoc(
    id: ArticleId,
    title: string,
    slug: string,
    content: string,
    publishedDate: int,
    isPublished: bool,
    titleModified: bool,
    slugModified: bool)

  datatype FieldError = TitleRequired | TitleTooLong | SlugFormat | ContentRequired | PublishedDateInFuture

  datatype SaveError =
    | Invalid(errors: seq<FieldError>)  // Mongoose ValidationError
    | DuplicateSlug                     // E11000 from the unique index on slug

  const MaxTitleLength := 200

  /** `new Article({...})`: a fresh document; `publishedDate` defaults to the
      construction time. Every path set by the constructor counts as modified. */
  function NewArticleDoc(id: ArticleId, title: string, content: string, isPublished: bool,
                         publishedDate: Option<int>, now: int): ArticleDoc
  {
    ArticleDoc(id, title, "", content, publishedDate.GetOr(now), isPublished, true, false)
  }

  /** `Article.findById(id)`: a loaded document with nothing modified. */
  function LoadDoc(store: ArticleStore, id: ArticleId): (doc: ArticleDoc)
    requires id in store
    ensures doc.id == id && doc.slug == store[id].slug
    ensures !doc.titleModified && !doc.slugModified
  {
    var a := store[id];
    ArticleDoc(id, a.title, a.slug, a.content, a.publishedDate, a.isPublished, false, false)
  }

  /** What the schema accepts, field by field (src/lib/models/Article.ts:14-42).
      The title is checked after its `trim` setter and its length is counted
      in UTF-16 code units; content is not trimmed; the slug `match` only
      judges a slug that is already set. */
  predicate FieldsAcceptable(doc: ArticleDoc, now: int) {
    && 1 <= |Trim(doc.title)| && JsLength(Trim(doc.title)) <= MaxTitleLength
    && (|doc.slug| == 0 || AllSlugChars(doc.slug))
    && |doc.content| > 0
    && doc.publishedDate <= now
  }

  /** The validators, in schema order; each path reports its first failing check. */
  function ValidationErrors(doc: ArticleDoc, now: int): (errs: seq<FieldError>)
    ensures |errs| == 0 <==> FieldsAcceptable(doc, now)
    ensures TitleRequired in errs <==> |Trim(doc.title)| == 0
    ensures TitleTooLong in errs <==> JsLength(Trim(doc.title)) > MaxTitleLength
    ensures SlugFormat in errs <==> |doc.slug| > 0 && !AllSlugChars(doc.slug)
    ensures ContentRequired in errs <==> |doc.content| == 0
    ensures PublishedDateInFuture in errs <==> doc.publishedDate > now
  {
    var t := Trim(doc.title);
    var title := if |t| == 0 then [TitleRequired] else if JsLength(t) > MaxTitleLength then [TitleTooLong] else [];
    var slug := if |doc.slug| > 0 && !AllSlugChars(doc.slug) then [SlugFormat] else [];
    var content := if |doc.content| == 0 then [ContentRequired] else [];
    var date := if doc.publishedDate > now then [PublishedDateInFuture] else [];
    var errs := title + slug + content + date;
    assert forall e :: e in errs <==> e in title || e in slug || e in content || e in date;
    errs
  }

  /** Slugs held by stored articles other than `self`. */
  function OtherSlugs(store: ArticleStore, self: ArticleId): set<string> {
    set id | id in store && id != self :: store[id].slug
  }

  /** Slugs held by every stored article, `self` included. */
  function AllSlugs(store: ArticleStore): set<string> {
    set id | id in store :: store[id].slug
  }

  lemma SlugCountBound(store: ArticleStore)
    ensures |AllSlugs(store)| <= |store|
  {
    SlugImageBound(store, store.Keys);
    assert AllSlugs(store) == set id | id in store.Keys :: store[id].slug;
  }

  lemma {:induction false} SlugImageBound(store: ArticleStore, keys: set<ArticleId>)
    requires keys <= store.Keys
    ensures |set id | id in keys :: store[id].slug| <= |keys|
  {
    if keys != {} {
      var x :| x in keys;
      var rest := keys - {x};
      SlugImageBound(store, rest);
      var img := set id | id in keys :: store[id].slug;
      var imgRest := set id | id in rest :: store[id].slug;
      assert img == imgRest + {store[x].slug};
    }
  }

  /** The second hook (src/lib/models/Article.ts:87-106) once it has decided
      to run: keep `base` when no OTHER article holds it, else probe
      `base-1`, `base-2`, ... against EVERY stored article, the one being
      saved included. */
  function ResolveSlug(store: ArticleStore, self: ArticleId, base: string): (r: string)
    ensures base !in OtherSlugs(store, self) ==> r == base
    ensures base in OtherSlugs(store, self) ==>
      exists k :: 1 <= k <= |store| + 1 && IsLeastFree(base, AllSlugs(store), k) && r == Candidate(base, k)
    ensures r !in OtherSlugs(store, self)
    ensures AllSlugChars(base) ==> AllSlugChars(r)
  {
    if base !in OtherSlugs(store, self) then base
    else
      var k := ProbeFrom(base, AllSlugs(store), 1);
      SlugCountBound(store);
      assert OtherSlugs(store, self) <= AllSlugs(store);
      Candidate(base, k)
  }

  /** `article.save()`: validators first, then the slug hooks, then the
      unique index on `slug`. `timestamp` and `tag` are the `Date.now()` and
      `Math.random()` text the fallback slug would use. */
  function Save(store: ArticleStore, doc: ArticleDoc, now: int, timestamp: int, tag: RandomTag)
    : (r: Result<ArticleStore, SaveError>)
    ensures r.Failure? && r.error.Invalid? <==> !FieldsAcceptable(doc, now)
    ensures r.Success? ==> doc.id in r.value && r.value == store[doc.id := r.value[doc.id]]
    ensures r.Success? ==>
      var a := r.value[doc.id];
      && a.title == Trim(doc.title) && a.content == doc.content
      && a.publishedDate == doc.publishedDate && a.isPublished == doc.isPublished
      && a.slug !in OtherSlugs(store, doc.id)
  {
    var errs := ValidationErrors(doc, now);
    if |errs| > 0 then Failure(Invalid(errs))
    else
      var slug := SlugAfterHooks(store, doc, timestamp, tag);
      if slug in OtherSlugs(store, doc.id) then Failure(DuplicateSlug)
      else Success(store[doc.id := Article(Trim(doc.title), slug, doc.content, doc.publishedDate, doc.isPublished)])
  }

  /** The first hook recomputes the slug when the title is modified or no
      slug is set; the second probes when the slug path ends up modified. */
  function SlugAfterHooks(store: ArticleStore, doc: ArticleDoc, timestamp: int, tag: RandomTag): (r: string)
    // a modified title or a missing slug gives the title's base slug, probed
    // unless it is what the document already held and the path is unmodified
    ensures doc.titleModified || |doc.slug| == 0 ==>
      var base := BaseSlug(Trim(doc.title), timestamp, tag);
      && AllSlugChars(r)
      && r == (if doc.slugModified || base != doc.slug then ResolveSlug(store, doc.id, base) else base)
    // otherwise the held slug stays, probed only when it was itself modified
    ensures !(doc.titleModified || |doc.slug| == 0) ==>
      r == (if doc.slugModified then ResolveSlug(store, doc.id, doc.slug) else doc.slug)
    // a slug that differs from the held one never collides with another article
    ensures r == doc.slug || r !in OtherSlugs(store, doc.id)
  {
    var recompute := doc.titleModified || |doc.slug| == 0;
    var slug := if recompute then BaseSlug(Trim(doc.title), timestamp, tag) else doc.slug;
    if doc.slugModified || slug != doc.slug then ResolveSlug(store, doc.id, slug) else slug
  }

  /** A document without a slug (a new one) is saved exactly when its fields
      are acceptable: its generated slug never meets the unique index. */
  lemma SaveWithoutSlugSucceeds(store: ArticleStore, doc: ArticleDoc, now: int, timestamp: int, tag: RandomTag)
    requires |doc.slug| == 0
    ensures Save(store, doc, now, timestamp, tag).Success? <==> FieldsAcceptable(doc, now)
  {
  }

  /** When the probe runs, the stored slug is the least free candidate. */
  lemma SaveTakesLeastFreeCandidate(store: ArticleStore, doc: ArticleDoc, now: int, timestamp: int, tag: RandomTag, k: nat)
    requires doc.titleModified
    requires BaseSlug(Trim(doc.title), timestamp, tag) in OtherSlugs(store, doc.id)
    requires IsLeastFree(BaseSlug(Trim(doc.title), timestamp, tag), AllSlugs(store), k)
    requires Save(store, doc, now, timestamp, tag).Success?
    ensures Save(store, doc, now, timestamp, tag).value[doc.id].slug == Candidate(BaseSlug(Trim(doc.title), timestamp, tag), k)
  {
    var base := BaseSlug(Trim(doc.title), timestamp, tag);
    SaveProbesTakenBase(store, doc, now, timestamp, tag);
    var j :| IsLeastFree(base, AllSlugs(store), j) && Save(store, doc, now, timestamp, tag).value[doc.id].slug == Candidate(base, j);
    LeastFreeUnique(base, AllSlugs(store), j, k);
  }

  /** Every stored slug is distinct. */
  predicate SlugsUnique(store: ArticleStore) {
    forall a, b :: a in store && b in store && a != b ==> store[a].slug != store[b].slug
  }

  /** Every stored slug is non-empty and within `[a-z0-9-]`. */
  predicate SlugsWellFormed(store: ArticleStore) {
    forall a :: a in store ==> |store[a].slug| > 0 && AllSlugChars(store[a].slug)
  }

  predicate StoreInvariant(store: ArticleStore) {
    SlugsUnique(store) && SlugsWellFormed(store)
  }

  /** A document whose slug path is untouched carries the slug stored for it. */
  predicate DocConsistent(store: ArticleStore, doc: ArticleDoc) {
    !doc.slugModified && |doc.slug| > 0 ==> doc.id in store && store[doc.id].slug == doc.slug
  }

  /** The probe makes the unique index redundant: a consistent save never
      hits a duplicate key, and every save keeps slugs unique, non-empty and
      within `[a-z0-9-]`, although the `match` validator never sees a
      generated slug. */
  lemma SavePreservesInvariant(store: ArticleStore, doc: ArticleDoc, now: int, timestamp: int, tag: RandomTag)
    requires StoreInvariant(store)
    requires DocConsistent(store, doc)
    ensures Save(store, doc, now, timestamp, tag) != Failure(DuplicateSlug)
    ensures Save(store, doc, now, timestamp, tag).Success? <==> FieldsAcceptable(doc, now)
    ensures Save(store, doc, now, timestamp, tag).Success? ==> StoreInvariant(Save(store, doc, now, timestamp, tag).value)
  {
    if FieldsAcceptable(doc, now) {
      var slug := SlugAfterHooks(store, doc, timestamp, tag);
      assert slug !in OtherSlugs(store, doc.id) && |slug| > 0 && AllSlugChars(slug) by {
        var recompute := doc.titleModified || |doc.slug| == 0;
        var slug1 := if recompute then BaseSlug(Trim(doc.title), timestamp, tag) else doc.slug;
        assert |slug1| > 0 && AllSlugChars(slug1);
        if !(doc.slugModified || slug1 != doc.slug) {
          assert doc.id in store && store[doc.id].slug == doc.slug;
          forall b | b in store && b != doc.id ensures store[b].slug != slug {
          }
        }
      }
      var a := Article(Trim(doc.title), slug, doc.content, doc.publishedDate, doc.isPublished);
      assert Save(store, doc, now, timestamp, tag) == Success(store[doc.id := a]);
      UpdateKeepsInvariant(store, doc.id, a);
    }
  }

  /** Writing an article whose slug is well formed and held by no other
      article keeps the invariant. */
  lemma UpdateKeepsInvariant(store: ArticleStore, id: ArticleId, a: Article)
    requires StoreInvariant(store)
    requires a.slug !in OtherSlugs(store, id) && |a.slug| > 0 && AllSlugChars(a.slug)
    ensures StoreInvariant(store[id := a])
  {
    var s' := store[id := a];
    forall x, y | x in s' && y in s' && x != y ensures s'[x].slug != s'[y].slug {
      if x == id {
        assert s'[y].slug in OtherSlugs(store, id);
      } else if y == id {
        assert s'[x].slug in OtherSlugs(store, id);
      }
    }
  }

  /** Saving a document whose title and slug are untouched keeps its slug and
      never probes (src/lib/models/Article.ts:69, 88). */
  lemma SaveKeepsSlugWhenTitleUnchanged(store: ArticleStore, doc: ArticleDoc, now: int, timestamp: int, tag: RandomTag)
    requires !doc.titleModified && !doc.slugModified && |doc.slug| > 0
    requires Save(store, doc, now, timestamp, tag).Success?
    ensures Save(store, doc, now, timestamp, tag).value[doc.id].slug == doc.slug
  {
  }

  /** Editing only the content and publish flag of a stored article leaves its
      slug as it was. */
  lemma EditingBodyKeepsSlug(store: ArticleStore, id: ArticleId, content: string, isPublished: bool,
                             now: int, timestamp: int, tag: RandomTag)
    requires id in store && StoreInvariant(store)
    requires Save(store, LoadDoc(store, id).(content := content, isPublished := isPublished), now, timestamp, tag).Success?
    ensures Save(store, LoadDoc(store, id).(content := content, isPublished := isPublished), now, timestamp, tag).value[id].slug
         == store[id].slug
  {
    SaveKeepsSlugWhenTitleUnchanged(store, LoadDoc(store, id).(content := content, isPublished := isPublished), now, timestamp, tag);
  }

  /** When the title changes and no other article holds the new base slug,
      the base slug is stored as it is. */
  lemma SaveKeepsFreeBase(store: ArticleStore, doc: ArticleDoc, now: int, timestamp: int, tag: RandomTag)
    requires doc.titleModified
    requires BaseSlug(Trim(doc.title), timestamp, tag) !in OtherSlugs(store, doc.id)
    requires Save(store, doc, now, timestamp, tag).Success?
    ensures Save(store, doc, now, timestamp, tag).value[doc.id].slug == BaseSlug(Trim(doc.title), timestamp, tag)
  {
  }

  /** When the title changes and another article holds the base slug, the
      stored slug is `base-k` for the least k >= 1 that no stored article,
      the saved one included, holds, and k <= |store| + 1. */
  lemma SaveProbesTakenBase(store: ArticleStore, doc: ArticleDoc, now: int, timestamp: int, tag: RandomTag)
    requires doc.titleModified
    requires BaseSlug(Trim(doc.title), timestamp, tag) in OtherSlugs(store, doc.id)
    requires Save(store, doc, now, timestamp, tag).Success?
    ensures var base := BaseSlug(Trim(doc.title), timestamp, tag);
      exists k :: (&& 1 <= k <= |store| + 1
                   && IsLeastFree(base, AllSlugs(store), k)
                   && Save(store, doc, now, timestamp, tag).value[doc.id].slug == Candidate(base, k))
  {
  }
}

=== FILE: article_scenarios.dfy ===
/** Concrete save sequences over the article model. */
module ArticleScenarios {
  import opened Wrappers
  import opened Text
  import opened Slug
  import opened ArticleModel

  lemma {:induction false} RunsOverPlainPrefix(a: string, b: string, inClass: char -> bool, inRun: bool)
    requires |a| > 0
    requires forall i :: 0 <= i < |a| ==> !inClass(a[i])
    ensures CollapseRuns(a + b, inClass, inRun) == a + CollapseRuns(b, inClass, false)
  {
    var ab := a + b;
    assert ab[0] == a[0] && !inClass(a[0]);
    assert ab[1..] == a[1..] + b;
    assert CollapseRuns(ab, inClass, inRun) == [a[0]] + CollapseRuns(a[1..] + b, inClass, false);
    if |a| > 1 {
      RunsOverPlainPrefix(a[1..], b, inClass, false);
      assert a == [a[0]] + a[1..];
    } else {
      assert a == [a[0]];
    }
  }

  lemma SameTitleLiteral()
    ensures "same" + ("-" + "title") == "same-title"
  {
    var a := "same" + ("-" + "title");
    assert |a| == 10;
    assert forall i :: 0 <= i < 10 ==> a[i] == "same-title"[i];
  }

  /** The texts are parameters pinned to their literals so that the
      verifier unfolds them only where the proof indexes into them. */
  lemma SameTitleDashed(lowered: string, dashed: string)
    requires lowered == "same title" && dashed == "same-title"
    ensures CollapseRuns(lowered, IsJsSpace, false) == dashed
  {
    assert lowered == "same" + " title";
    RunsOverPlainPrefix("same", " title", IsJsSpace, false);
    assert " title"[1..] == "title";
    assert CollapseRuns(" title", IsJsSpace, false) == "-" + CollapseRuns("title", IsJsSpace, true);
    RunsFixIfAbsent("title", IsJsSpace, true);
    SameTitleLiteral();
  }

  lemma SameTitleIsNormal()
    ensures IsNormalSlug("same-title")
  {
    var d := "same-title";
    forall i | 0 <= i < |d| - 1 ensures !(d[i] == '-' && d[i + 1] == '-') {
      if d[i] == '-' {
        assert i == 4;
      }
    }
  }

  /** As above, the literals come in as pinned parameters. */
  lemma SameTitleLowered(title: string, lowered: string)
    requires title == "Same Title" && lowered == "same title"
    ensures LowerAscii(title) == lowered
  {
    var r := LowerAscii(title);
    assert forall i :: 0 <= i < |title| ==> r[i] == lowered[i];
  }

  /** `Normalise` read off its stages, for a title whose lowered form keeps
      every character and whose dashed form is already a normal slug. */
  lemma NormaliseByStages(title: string, lowered: string, dashed: string)
    requires LowerAscii(title) == lowered
    requires StripDisallowed(lowered) == lowered
    requires CollapseRuns(lowered, IsJsSpace, false) == dashed
    requires IsNormalSlug(dashed)
    ensures Normalise(title) == dashed
  {
    HyphenRunsFixIfSingle(dashed, false);
  }

  /** The title of the collision test normalises to `same-title`. */
  lemma SameTitleNormalises(title: string)
    requires title == "Same Title"
    ensures Normalise(title) == "same-title"
  {
    var lowered, dashed := "same title", "same-title";
    SameTitleLowered(title, lowered);
    StripFixesKept(lowered);
    SameTitleDashed(lowered, dashed);
    SameTitleIsNormal();
    NormaliseByStages(title, lowered, dashed);
  }

  /** Three articles saved in turn under one title whose normal form is not
      empty get `b`, `b-1` and `b-2`, in creation order. */
  lemma ThreeSavesOfOneTitle(title: string, content: string, now: int, timestamp: int, tag: RandomTag)
    requires 1 <= |Trim(title)| && JsLength(Trim(title)) <= MaxTitleLength && |content| > 0
    requires |Normalise(Trim(title))| > 0
    ensures var b := Normalise(Trim(title));
      var r1 := Save(map[], NewArticleDoc(1, title, content, false, None, now), now, timestamp, tag);
      && r1.Success? && r1.value[1].slug == b
      && var r2 := Save(r1.value, NewArticleDoc(2, title, content, false, None, now), now, timestamp, tag);
      && r2.Success? && r2.value[2].slug == Candidate(b, 1)
      && var r3 := Save(r2.value, NewArticleDoc(3, title, content, false, None, now), now, timestamp, tag);
      && r3.Success? && r3.value[3].slug == Candidate(b, 2)
  {
    var b := Normalise(Trim(title));
    var d1 := NewArticleDoc(1, title, content, false, None, now);
    var d2 := NewArticleDoc(2, title, content, false, None, now);
    var d3 := NewArticleDoc(3, title, content, false, None, now);
    assert FieldsAcceptable(d1, now) && FieldsAcceptable(d2, now) && FieldsAcceptable(d3, now);
    FirstSave(b, d1, now, timestamp, tag);
    var s1 := Save(map[], d1, now, timestamp, tag).value;

    SecondSave(s1, b, d2, now, timestamp, tag);
    var s2 := Save(s1, d2, now, timestamp, tag).value;
    ThirdSave(s2, b, d3, now, timestamp, tag);
  }

  lemma FirstSave(b: string, d1: ArticleDoc, now: int, timestamp: int, tag: RandomTag)
    requires d1.id == 1 && d1.titleModified && |d1.slug| == 0 && FieldsAcceptable(d1, now)
    requires BaseSlug(Trim(d1.title), timestamp, tag) == b
    ensures Save(map[], d1, now, timestamp, tag).Success?
    ensures Save(map[], d1, now, timestamp, tag).value.Keys == {1}
    ensures Save(map[], d1, now, timestamp, tag).value[1].slug == b
  {
    SaveWithoutSlugSucceeds(map[], d1, now, timestamp, tag);
    SaveKeepsFreeBase(map[], d1, now, timestamp, tag);
  }

  lemma SecondSave(s1: ArticleStore, b: string, d2: ArticleDoc, now: int, timestamp: int, tag: RandomTag)
    requires s1.Keys == {1} && s1[1].slug == b
    requires d2.id == 2 && d2.titleModified && |d2.slug| == 0 && FieldsAcceptable(d2, now)
    requires BaseSlug(Trim(d2.title), timestamp, tag) == b
    ensures Save(s1, d2, now, timestamp, tag).Success?
    ensures Save(s1, d2, now, timestamp, tag).value.Keys == {1, 2}
    ensures Save(s1, d2, now, timestamp, tag).value[1].slug == b
    ensures Save(s1, d2, now, timestamp, tag).value[2].slug == Candidate(b, 1)
  {
    SaveWithoutSlugSucceeds(s1, d2, now, timestamp, tag);
    FirstSuffixIsFree(s1, b);
    SaveTakesLeastFreeCandidate(s1, d2, now, timestamp, tag, 1);
  }

  lemma FirstSuffixIsFree(s1: ArticleStore, b: string)
    requires s1.Keys == {1} && s1[1].slug == b
    ensures b in OtherSlugs(s1, 2)
    ensures IsLeastFree(b, AllSlugs(s1), 1)
  {
    assert s1[1].slug == b;
    assert AllSlugs(s1) == {b};
    CandidateDiffersFromBase(b, 1);
  }

  lemma ThirdSave(s2: ArticleStore, b: string, d3: ArticleDoc, now: int, timestamp: int, tag: RandomTag)
    requires s2.Keys == {1, 2} && s2[1].slug == b && s2[2].slug == Candidate(b, 1)
    requires d3.id == 3 && d3.titleModified && |d3.slug| == 0 && FieldsAcceptable(d3, now)
    requires BaseSlug(Trim(d3.title), timestamp, tag) == b
    ensures Save(s2, d3, now, timestamp, tag).Success?
    ensures Save(s2, d3, now, timestamp, tag).value[3].slug == Candidate(b, 2)
  {
    SaveWithoutSlugSucceeds(s2, d3, now, timestamp, tag);
    SecondSuffixIsFree(s2, b);
    SaveTakesLeastFreeCandidate(s2, d3, now, timestamp, tag, 2);
  }

  lemma SecondSuffixIsFree(s2: ArticleStore, b: string)
    requires s2.Keys == {1, 2} && s2[1].slug == b && s2[2].slug == Candidate(b, 1)
    ensures b in OtherSlugs(s2, 3)
    ensures IsLeastFree(b, AllSlugs(s2), 2)
  {
    assert s2[1].slug == b;
    assert AllSlugs(s2) == {b, Candidate(b, 1)};
    CandidateDiffersFromBase(b, 2);
    if Candidate(b, 2) == Candidate(b, 1) {
      CandidateInjective(b, 2, 1);
    }
  }

  lemma SameTitleCandidates()
    ensures Candidate("same-title", 1) == "same-title-1"
    ensures Candidate("same-title", 2) == "same-title-2"
  {
    assert IntToString(1) == "1";
    assert IntToString(2) == "2";
  }

  /** The collision test: three "Same Title" articles get `same-title`,
      `same-title-1` and `same-title-2`. */
  lemma SameTitleThreeTimes(now: int, timestamp: int, tag: RandomTag)
    ensures var r1 := Save(map[], NewArticleDoc(1, "Same Title", "Content", false, None, now), now, timestamp, tag);
      && r1.Success? && r1.value[1].slug == "same-title"
      && var r2 := Save(r1.value, NewArticleDoc(2, "Same Title", "Content", false, None, now), now, timestamp, tag);
      && r2.Success? && r2.value[2].slug == "same-title-1"
      && var r3 := Save(r2.value, NewArticleDoc(3, "Same Title", "Content", false, None, now), now, timestamp, tag);
      && r3.Success? && r3.value[3].slug == "same-title-2"
  {
    TrimFixesSolidEnds("Same Title");
    SameTitleNormalises("Same Title");
    SameTitleCandidates();
    ThreeSavesOfOneTitle("Same Title", "Content", now, timestamp, tag);
  }
}

=== FILE: articles_route.dfy ===
/** The article collection endpoint (src/app/api/articles/route.ts): the
    listing's pagination window and visibility filter, and creation's
    ordered input checks, document construction and error-to-status mapping. */
module ArticlesRoute {
  import opened Wrappers
  import opened Text
  import opened NumberText
  import opened Slug
  import opened SessionModel
  import opened ArticleModel
  import opened Auth
  import opened JsonValues
  import opened Middleware
  import opened Checks

  // ---------------------------------------------------------------------
  // Errors thrown inside the handlers and the status each handler gives them

  datatype ErrorName = ValidationError | MongoNetworkError | MongoServerError | OtherError

  /** A caught exception: its `name` and its `code`, if any. */
  datatype Thrown = Thrown(name: ErrorName, code: Option<int>)

  /** A JSON error body `{ error }` with its status. */
  datatype ErrorReply = ErrorReply(status: int, error: string)

  const DuplicateKeyCode := 11000

  /** How the database layer reports a failed article save: a Mongoose
      validation error, or the driver's E11000 from the unique index. */
  function SaveThrown(e: SaveError): Thrown {
    match e
    case Invalid(_) => Thrown(ValidationError, None)
    case DuplicateSlug => Thrown(MongoServerError, Some(DuplicateKeyCode))
  }

  /** The same for a failed session save inside `getCurrentUser`. */
  function SessionThrown(e: SessionError): Thrown {
    match e
    case Invalid(_) => Thrown(ValidationError, None)
    case DuplicateSessionId => Thrown(MongoServerError, Some(DuplicateKeyCode))
  }

  predicate IsMongoError(e: Thrown) {
    e.name == MongoNetworkError || e.name == MongoServerError
  }

  /** The listing's `catch`: 400 for a validation error, 503 for a driver
      error, 500 for anything else. */
  function ListError(e: Thrown): (r: ErrorReply)
    ensures r.status == 400 <==> e.name == ValidationError
    ensures r.status == 503 <==> IsMongoError(e)
    ensures r.status in {400, 503, 500}
  {
    if e.name == ValidationError then ErrorReply(400, "Invalid query parameters")
    else if IsMongoError(e) then ErrorReply(503, "Database connection error")
    else ErrorReply(500, "Internal server error")
  }

  /** Creation's `catch`: as the listing's, except that a duplicate key
      (code 11000), checked before the driver-error test, is 409. */
  function CreateError(e: Thrown): (r: ErrorReply)
    ensures r.status == 400 <==> e.name == ValidationError
    ensures r.status == 409 <==> e.name != ValidationError && e.code == Some(DuplicateKeyCode)
    ensures r.status == 503 <==> IsMongoError(e) && e.code != Some(DuplicateKeyCode)
    ensures r.status in {400, 409, 503, 500}
  {
    if e.name == ValidationError then ErrorReply(400, "Validation failed")
    else if e.code == Some(DuplicateKeyCode) then ErrorReply(409, "Article with similar title already exists")
    else if IsMongoError(e) then ErrorReply(503, "Database connection error")
    else ErrorReply(500, "Internal server error")
  }

  /** The two handlers map an error to the same status except for a
      duplicate key, which creation reports as 409 and the listing as a
      driver error or a plain failure. */
  lemma StatusMapsDifferOnlyOnDuplicateKey(e: Thrown)
    ensures CreateError(e).status != ListError(e).status <==>
      e.name != ValidationError && e.code == Some(DuplicateKeyCode)
    ensures SaveThrown(DuplicateSlug) == Thrown(MongoServerError, Some(DuplicateKeyCode))
    ensures CreateError(SaveThrown(DuplicateSlug)).status == 409
    ensures ListError(SaveThrown(DuplicateSlug)).status == 503
  {
  }

  // ---------------------------------------------------------------------
  // GET: pagination (src/app/api/articles/route.ts:13-15, 58-60)

  const DefaultLimit := 10
  const MaxLimit := 100

  /** `searchParams.get(name) || fallback`: an absent or empty parameter
      reads as the fallback text. */
  function ParamOr(p: Option<string>, fallback: string): (r: string)
    ensures (p.None? || p == Some("")) ==> r == fallback
    ensures p.Some? && |p.value| > 0 ==> r == p.value
  {
    if p.None? || |p.value| == 0 then fallback else p.value
  }

  /** `Math.min(Math.max(parseInt(limit || '10'), 1), 100)`. `None` is NaN,
      which `Math.max` and `Math.min` pass through. */
  function PageLimit(param: Option<string>): (limit: Option<int>)
    ensures limit.Some? ==> 1 <= limit.value <= MaxLimit
    ensures limit.None? <==> ParseInt(ParamOr(param, "10")).None?
    ensures ParseInt(ParamOr(param, "10")) == Some(DefaultLimit) ==> limit == Some(DefaultLimit)
  {
    match ParseInt(ParamOr(param, "10"))
    case None => None
    case Some(n) => Some(if n < 1 then 1 else if n > MaxLimit then MaxLimit else n)
  }

  /** `Math.max(parseInt(page || '1'), 1)`. */
  function PageNumber(param: Option<string>): (page: Option<int>)
    ensures page.Some? ==> page.value >= 1
    ensures page.None? <==> ParseInt(ParamOr(param, "1")).None?
  {
    match ParseInt(ParamOr(param, "1"))
    case None => None
    case Some(n) => Some(if n < 1 then 1 else n)
  }

  /** The distance between two integers. */
  function Dist(a: int, b: int): nat {
    if a >= b then a - b else b - a
  }

  /** A parsed number becomes the allowed limit nearest to it: no limit
      from 1 to 100 is closer. A number in range is kept. */
  lemma LimitClamps(param: Option<string>, n: int)
    requires ParseInt(ParamOr(param, "10")) == Some(n)
    ensures PageLimit(param).Some?
    ensures var l := PageLimit(param).value;
      && 1 <= l <= MaxLimit
      && forall m :: 1 <= m <= MaxLimit ==> Dist(l, n) <= Dist(m, n)
    ensures 1 <= n <= MaxLimit ==> PageLimit(param) == Some(n)
  {
  }

  /** With neither parameter given the window is the first ten articles.
      The default texts come in as parameters so that the literals are
      only unfolded where the proof compares them. */
  lemma DefaultWindow(limitText: string, pageText: string)
    requires limitText == "10" && pageText == "1"
    ensures PageLimit(None) == Some(DefaultLimit) && PageNumber(None) == Some(1)
    ensures Skip(PageNumber(None), PageLimit(None)) == Some(0)
  {
    ParseIntReadsLeadingInteger(10, "");
    ParseIntReadsLeadingInteger(1, "");
    assert IntToString(10) == limitText by {
      assert NatToRadix(10, 10) == NatToRadix(1, 10) + [DigitChar(0)];
    }
    assert IntToString(1) == pageText;
  }

  /** `(page - 1) * limit`; NaN in, NaN out. */
  function Skip(page: Option<int>, limit: Option<int>): (skip: Option<int>)
    ensures skip.Some? <==> page.Some? && limit.Some?
    ensures skip.Some? && page.value >= 1 && limit.value >= 1 ==>
      0 <= skip.value && skip.value + limit.value == page.value * limit.value
  {
    if page.Some? && limit.Some? then
      var s := (page.value - 1) * limit.value;
      SkipIsPreviousPages(page.value, limit.value);
      Some(s)
    else None
  }

  /** The pages before page `p` hold `(p - 1) * l` articles. */
  lemma SkipIsPreviousPages(p: int, l: int)
    ensures (p - 1) * l + l == p * l
    ensures p >= 1 && l >= 1 ==> (p - 1) * l >= 0
  {
    if p >= 1 && l >= 1 {
      MultiplyMonotone(0, p - 1, l);
    }
  }

  /** `Math.ceil(total / limit)` for a positive integer limit. */
  function CeilDiv(total: nat, limit: int): (q: nat)
    requires limit >= 1
    ensures q * limit >= total
    ensures q == 0 || (q - 1) * limit < total
  {
    var q := (total + limit - 1) / limit;
    CeilDivBounds(total, limit, q);
    q
  }

  lemma CeilDivBounds(total: nat, limit: int, q: int)
    requires limit >= 1 && q == (total + limit - 1) / limit
    ensures q >= 0 && q * limit >= total
    ensures q == 0 || (q - 1) * limit < total
  {
    var r := (total + limit - 1) % limit;
    assert q * limit + r == total + limit - 1;
    assert 0 <= r < limit;
  }

  /** The `pagination` object; `None` numbers are NaN (JSON `null`). */
  datatype Pagination = Pagination(
    total: nat,
    page: Option<int>,
    limit: Option<int>,
    totalPages: Option<int>,
    hasMore: bool,
    hasPrevious: bool)

  /** `totalPages`, `hasMore` and `hasPrevious` from the count; a NaN makes
      every comparison false. */
  function PageInfo(total: nat, page: Option<int>, limit: Option<int>): (p: Pagination)
    requires limit.Some? ==> limit.value >= 1
    ensures p.total == total && p.page == page && p.limit == limit
    ensures p.totalPages.Some? <==> limit.Some?
    ensures p.hasPrevious <==> page.Some? && page.value > 1
    ensures p.hasMore ==> page.Some? && limit.Some?
  {
    var totalPages := if limit.Some? then Some(CeilDiv(total, limit.value)) else None;
    var hasMore := page.Some? && totalPages.Some? && page.value < totalPages.value;
    Pagination(total, page, limit, totalPages, hasMore, page.Some? && page.value > 1)
  }

  /** There is a next page exactly when some matching article lies beyond
      the current one: `page < ceil(total / limit)` iff `page * limit < total`. */
  lemma HasMoreMeansArticlesBeyondPage(total: nat, page: int, limit: int)
    requires page >= 1 && limit >= 1
    ensures PageInfo(total, Some(page), Some(limit)).hasMore <==> page * limit < total
  {
    var q := CeilDiv(total, limit);
    if page < q {
      assert page <= q - 1;
      assert page * limit <= (q - 1) * limit by {
        MultiplyMonotone(page, q - 1, limit);
      }
    } else {
      assert q * limit <= page * limit by {
        MultiplyMonotone(q, page, limit);
      }
    }
  }

  lemma MultiplyMonotone(a: int, b: int, c: int)
    requires a <= b && c >= 0
    ensures a * c <= b * c
  {
  }

  /** The pages cover the matching articles with no empty page at the end. */
  lemma TotalPagesCoverArticles(total: nat, limit: int)
    requires limit >= 1
    ensures var pages := PageInfo(total, Some(1), Some(limit)).totalPages.value;
      && pages * limit >= total
      && (total == 0 <==> pages == 0)
      && (pages > 0 ==> (pages - 1) * limit < total)
  {
  }

  // ---------------------------------------------------------------------
  // GET: the query filter (src/app/api/articles/route.ts:21-44)

  datatype Visibility = PublishedOnly | DraftsOnly | AllArticles

  /** The `isPublished` part of the filter: `published` is obeyed for
      `'true'`; `'false'` and "no filter" are only for the admin. */
  function VisibilityFilter(published: Option<string>, isAdmin: bool): (v: Visibility)
    ensures !isAdmin ==> v == PublishedOnly
    ensures isAdmin ==> (v == PublishedOnly <==> published == Some("true"))
    ensures isAdmin ==> (v == DraftsOnly <==> published == Some("false"))
  {
    if published == Some("true") then PublishedOnly
    else if published == Some("false") && isAdmin then DraftsOnly
    else if !isAdmin then PublishedOnly
    else AllArticles
  }

  /** Whether an article passes the `isPublished` part of the filter. */
  predicate Shows(v: Visibility, a: Article) {
    match v
    case PublishedOnly => a.isPublished
    case DraftsOnly => !a.isPublished
    case AllArticles => true
  }

  /** A caller who is not the admin never sees a draft, whatever `published` says. */
  lemma GuestsSeeOnlyPublished(published: Option<string>, a: Article)
    ensures Shows(VisibilityFilter(published, false), a) <==> a.isPublished
  {
  }

  /** The admin sees what `published` asks for, and everything otherwise. */
  lemma AdminSeesWhatIsAsked(published: Option<string>, a: Article)
    ensures Shows(VisibilityFilter(published, true), a) <==>
      (published == Some("true") ==> a.isPublished) && (published == Some("false") ==> !a.isPublished)
  {
  }

  /** `search && search.trim()`: the trimmed term, when there is one. */
  function SearchTerm(search: Option<string>): (t: Option<string>)
    ensures t.Some? <==> search.Some? && |Trim(search.value)| > 0
    ensures t.Some? ==> t.value == Trim(search.value) && NoSpaceAtEnds(t.value)
  {
    if search.Some? && |Trim(search.value)| > 0 then Some(Trim(search.value)) else None
  }

  predicate NoSpaceAtEnds(s: string) {
    |s| > 0 && !IsJsSpace(s[0]) && !IsJsSpace(s[|s| - 1])
  }

  datatype ListParams = ListParams(limit: Option<string>, page: Option<string>,
                                   published: Option<string>, search: Option<string>)

  /** What `Article.find(filter).skip(skip).limit(limit)` and
      `countDocuments(filter)` are asked. */
  datatype Query = Query(visibility: Visibility, search: Option<string>, skip: Option<int>, limit: Option<int>)

  datatype ListReply =
    | Listed(query: Query, pagination: Pagination, publishedEcho: string, searchEcho: string)
    | ListFailed(reply: ErrorReply)

  /** Whether the looked-up user is the admin: `currentUser?.role === 'admin'`. */
  predicate IsAdmin(user: Option<AuthUser>) {
    user.Some? && user.value.role == "admin"
  }

  /** The filter and window the listing asks the database for. */
  function ListQuery(params: ListParams, user: Option<AuthUser>): Query {
    var limit := PageLimit(params.limit);
    Query(VisibilityFilter(params.published, IsAdmin(user)), SearchTerm(params.search),
          Skip(PageNumber(params.page), limit), limit)
  }

  /** The listing handler. `lookup` is the settled `getCurrentUser()`;
      `count` stands for the database: the number of matching articles, or
      what it threw. The page of documents itself is not modelled. */
  function ListArticles(params: ListParams, lookup: Lookup, count: Query -> Result<nat, Thrown>): (r: ListReply)
    ensures lookup.Failure? ==> r == ListFailed(ListError(SessionThrown(lookup.error)))
    ensures lookup.Success? ==>
      var query := ListQuery(params, lookup.value);
      && (r.Listed? <==> count(query).Success?)
      && (r.ListFailed? ==> r.reply == ListError(count(query).error))
    ensures r.ListFailed? ==> r.reply.status in {400, 503, 500}
    // the filter: visibility from `published` and the caller, the trimmed
    // search term, and the window from `page` and `limit`
    ensures r.Listed? ==>
      && r.query.visibility == VisibilityFilter(params.published, IsAdmin(lookup.value))
      && r.query.search == SearchTerm(params.search)
      && r.query.skip == Skip(PageNumber(params.page), PageLimit(params.limit))
      && r.query.limit == PageLimit(params.limit)
    ensures r.Listed? && !IsAdmin(lookup.value) ==> r.query.visibility == PublishedOnly
    // the pagination describes the count of that same filter
    ensures r.Listed? ==>
      && r.pagination == PageInfo(count(r.query).value, PageNumber(params.page), PageLimit(params.limit))
      && r.publishedEcho == ParamOr(params.published, "all")
      && r.searchEcho == ParamOr(params.search, "")
    ensures r.Listed? && r.pagination.page.Some? && r.pagination.limit.Some? ==>
      (r.pagination.hasMore <==> r.pagination.page.value * r.pagination.limit.value < r.pagination.total)
  {
    var limit := PageLimit(params.limit);
    var page := PageNumber(params.page);
    match lookup
    case Failure(e) => ListFailed(ListError(SessionThrown(e)))
    case Success(user) =>
      var query := ListQuery(params, user);
      match count(query)
      case Failure(e) => ListFailed(ListError(e))
      case Success(total) =>
        var listed := Listed(query, PageInfo(total, page, limit),
                             ParamOr(params.published, "all"), ParamOr(params.search, ""));
        if page.Some? && limit.Some? then
          HasMoreMeansArticlesBeyondPage(total, page.value, limit.value);
          listed
        else listed
  }

  /** A listing for anyone but the admin filters on published articles, so
      every article it counts is published. */
  lemma ListingHidesDraftsFromGuests(params: ListParams, lookup: Lookup, count: Query -> Result<nat, Thrown>, a: Article)
    requires lookup.Success? && !IsAdmin(lookup.value)
    requires ListArticles(params, lookup, count).Listed?
    ensures Shows(ListArticles(params, lookup, count).query.visibility, a) ==> a.isPublished
  {
  }

  // ---------------------------------------------------------------------
  // POST: the body checks (src/app/api/articles/route.ts:122-180)

  /** The fields a body that passed every check contributes. */
  datatype ArticleInput = ArticleInput(title: string, content: string, isPublished: bool, publishedDate: Option<int>)

  /** `!v || typeof v !== 'string' || v.trim().length === 0`, negated. */
  predicate NonBlankString(v: Option<Json>) {
    v.Some? && v.value.JString? && |Trim(v.value.s)| > 0
  }

  const InvalidJson := "Invalid JSON in request body"
  const TitleMessage := "Title is required and must be a non-empty string"
  const ContentMessage := "Content is required and must be a non-empty string"
  const PublishedMessage := "isPublished must be a boolean value"
  const DateFormatMessage := "Invalid publishedDate format"
  const FutureDateMessage := "Published date cannot be in the future"

  /** Reads the body in the handler's order. `body == None` is a body that
      is not JSON; destructuring a `null` body throws a `TypeError`, which
      the handler's `catch` turns into a 500. `parseDate` is `new Date(v)`
      (`None` for an invalid date), `now` is `new Date()`. */
  function ReadArticleInput(body: Option<Json>, now: int, parseDate: Json -> Option<int>)
    : (r: Result<ArticleInput, ErrorReply>)
    ensures r.Failure? ==> r.error.status in {400, 500}
    // a body that is not JSON is refused first; only a `null` body reaches the 500
    ensures body.None? ==> r == Failure(ErrorReply(400, InvalidJson))
    ensures (r.Failure? && r.error.status == 500) <==> body == Some(JNull)
    ensures r.Success? ==> |r.value.title| > 0 && |r.value.content| > 0
    ensures r.Success? ==> Trim(r.value.title) == r.value.title
    ensures r.Success? && r.value.publishedDate.Some? ==> r.value.publishedDate.value <= now
  {
    if body.None? then Failure(ErrorReply(400, InvalidJson))
    else if body.value == JNull then Failure(CreateError(Thrown(OtherError, None)))
    else
      var title := Property(body.value, "title");
      var content := Property(body.value, "content");
      var isPublished := Property(body.value, "isPublished");
      var date := Property(body.value, "publishedDate");
      if !NonBlankString(title) then Failure(ErrorReply(400, TitleMessage))
      else if !NonBlankString(content) then Failure(ErrorReply(400, ContentMessage))
      else if isPublished.Some? && !isPublished.value.JBool? then Failure(ErrorReply(400, PublishedMessage))
      else
        var published := isPublished.Some? && isPublished.value.b;
        TrimIdempotent(title.value.s);
        var fields := ArticleInput(Trim(title.value.s), Trim(content.value.s), published, None);
        if !Truthy(date) then Success(fields)
        else match parseDate(date.value)
          case None => Failure(ErrorReply(400, DateFormatMessage))
          case Some(d) =>
            if d > now then Failure(ErrorReply(400, FutureDateMessage))
            else Success(fields.(publishedDate := Some(d)))
  }

  /** The checks of an object body as a list, in the handler's order: each
      says whether the body passes it and what the reply is when it does not. */
  function BodyChecks(body: Json, now: int, parseDate: Json -> Option<int>): seq<(bool, ErrorReply)>
    requires body != JNull
  {
    var isPublished := Property(body, "isPublished");
    var date := Property(body, "publishedDate");
    var parsed := if Truthy(date) then parseDate(date.value) else None;
    [ (NonBlankString(Property(body, "title")), ErrorReply(400, TitleMessage)),
      (NonBlankString(Property(body, "content")), ErrorReply(400, ContentMessage)),
      (isPublished.None? || isPublished.value.JBool?, ErrorReply(400, PublishedMessage)),
      (!Truthy(date) || parsed.Some?, ErrorReply(400, DateFormatMessage)),
      (!Truthy(date) || parsed.None? || parsed.value <= now, ErrorReply(400, FutureDateMessage)) ]
  }

  /** An object body is refused with exactly the reply of its first failing
      check, and accepted exactly when it passes them all. */
  lemma BodyRefusedByFirstFailingCheck(body: Json, now: int, parseDate: Json -> Option<int>)
    requires body != JNull
    ensures var r := ReadArticleInput(Some(body), now, parseDate);
      && (r.Failure? <==> FirstFailure(BodyChecks(body, now, parseDate)).Some?)
      && (r.Failure? ==> r.error == FirstFailure(BodyChecks(body, now, parseDate)).value)
  {
    var isPublished := Property(body, "isPublished");
    var date := Property(body, "publishedDate");
    var parsed := if Truthy(date) then parseDate(date.value) else None;
    FirstOfFive(
      (NonBlankString(Property(body, "title")), ErrorReply(400, TitleMessage)),
      (NonBlankString(Property(body, "content")), ErrorReply(400, ContentMessage)),
      (isPublished.None? || isPublished.value.JBool?, ErrorReply(400, PublishedMessage)),
      (!Truthy(date) || parsed.Some?, ErrorReply(400, DateFormatMessage)),
      (!Truthy(date) || parsed.None? || parsed.value <= now, ErrorReply(400, FutureDateMessage)));
  }

  /** What an accepted body stores: the trimmed title and content, the given
      `isPublished` or `false` when it is absent, and the date only when one
      was supplied. */
  lemma AcceptedBodyFields(body: Json, now: int, parseDate: Json -> Option<int>)
    requires body != JNull
    requires ReadArticleInput(Some(body), now, parseDate).Success?
    ensures var input := ReadArticleInput(Some(body), now, parseDate).value;
      var isPublished := Property(body, "isPublished");
      var date := Property(body, "publishedDate");
      && input.title == Trim(Property(body, "title").value.s)
      && input.content == Trim(Property(body, "content").value.s)
      && input.isPublished == (isPublished.Some? && isPublished.value.b)
      && (isPublished.None? ==> !input.isPublished)
      && (input.publishedDate.Some? <==> Truthy(date))
      && (input.publishedDate.Some? ==> input.publishedDate == parseDate(date.value))
  {
  }

  // ---------------------------------------------------------------------
  // POST: the handler (src/app/api/articles/route.ts:108-233)

  datatype CreateReply = Created(id: ArticleId, article: Article) | CreateFailed(reply: ErrorReply)

  const Unauthorized := "Unauthorized. Admin access required."

  /** The creation handler. `id` is the new document's id; `timestamp` and
      `tag` feed the fallback slug. The admin check comes first and needs
      no body; a thrown lookup lands in the `catch`. */
  function CreateArticle(store: ArticleStore, lookup: Lookup, body: Option<Json>, id: ArticleId, now: int,
                         parseDate: Json -> Option<int>, timestamp: int, tag: RandomTag)
    : (out: (ArticleStore, CreateReply))
    ensures out.1.CreateFailed? ==> out.0 == store
    ensures out.1.Created? ==>
      && lookup.Success? && IsAdmin(lookup.value)
      && ReadArticleInput(body, now, parseDate).Success?
      && out.1.id == id && out.0 == store[id := out.1.article]
    ensures lookup.Success? && !IsAdmin(lookup.value) ==> out == (store, CreateFailed(ErrorReply(401, Unauthorized)))
    // a thrown lookup goes through the handler's `catch`
    ensures lookup.Failure? ==> out == (store, CreateFailed(CreateError(SessionThrown(lookup.error))))
    // an admin's refused body is answered with the refusal of its first failing check
    ensures lookup.Success? && IsAdmin(lookup.value) && ReadArticleInput(body, now, parseDate).Failure? ==>
      out == (store, CreateFailed(ReadArticleInput(body, now, parseDate).error))
  {
    match lookup
    case Failure(e) => (store, CreateFailed(CreateError(SessionThrown(e))))
    case Success(user) =>
      if !IsAdmin(user) then (store, CreateFailed(ErrorReply(401, Unauthorized)))
      else
        match ReadArticleInput(body, now, parseDate)
        case Failure(refusal) => (store, CreateFailed(refusal))
        case Success(input) => SaveInput(store, id, input, now, timestamp, tag)
  }

  /** `new Article(articleData)` and `article.save()` for accepted input. */
  function SaveInput(store: ArticleStore, id: ArticleId, input: ArticleInput, now: int, timestamp: int, tag: RandomTag)
    : (out: (ArticleStore, CreateReply))
    ensures out.1.CreateFailed? ==> out.0 == store
    ensures out.1.Created? ==>
      var a := out.1.article;
      && out.1.id == id && out.0 == store[id := a]
      && a.title == Trim(input.title) && a.content == input.content
      && a.isPublished == input.isPublished && a.publishedDate == input.publishedDate.GetOr(now)
  {
    match Save(store, InputDoc(id, input, now), now, timestamp, tag)
    case Failure(e) => (store, CreateFailed(CreateError(SaveThrown(e))))
    case Success(saved) => (saved, Created(id, saved[id]))
  }

  function InputDoc(id: ArticleId, input: ArticleInput, now: int): ArticleDoc {
    NewArticleDoc(id, input.title, input.content, input.isPublished, input.publishedDate, now)
  }

  /** The stored article carries the accepted input: trimmed title and
      content, the flag, and the supplied date or the time of creation. */
  lemma CreatedArticleFields(store: ArticleStore, lookup: Lookup, body: Option<Json>, id: ArticleId, now: int,
                             parseDate: Json -> Option<int>, timestamp: int, tag: RandomTag)
    requires CreateArticle(store, lookup, body, id, now, parseDate, timestamp, tag).1.Created?
    ensures var a := CreateArticle(store, lookup, body, id, now, parseDate, timestamp, tag).1.article;
      var input := ReadArticleInput(body, now, parseDate).value;
      && a.title == input.title && a.content == input.content
      && a.isPublished == input.isPublished
      && a.publishedDate == input.publishedDate.GetOr(now)
  {
  }

  /** A caller who is not the admin gets 401 whatever the body is, and the
      store is untouched: the body is never read. */
  lemma CreateRefusesGuestsBeforeReading(store: ArticleStore, user: Option<AuthUser>, b1: Option<Json>, b2: Option<Json>,
                                         id: ArticleId, now: int, parseDate: Json -> Option<int>,
                                         timestamp: int, tag: RandomTag)
    requires !IsAdmin(user)
    ensures CreateArticle(store, Success(user), b1, id, now, parseDate, timestamp, tag)
         == CreateArticle(store, Success(user), b2, id, now, parseDate, timestamp, tag)
    ensures CreateArticle(store, Success(user), b1, id, now, parseDate, timestamp, tag).1.reply.status == 401
  {
  }

  /** On a store whose slugs are unique and well formed, creating an article
      under a fresh id never meets the unique index (no 409), fails only on a
      title longer than the schema allows (200 UTF-16 code units), and keeps
      the slugs unique. */
  lemma CreateNeverConflicts(store: ArticleStore, user: AuthUser, body: Option<Json>, id: ArticleId, now: int,
                             parseDate: Json -> Option<int>, timestamp: int, tag: RandomTag)
    requires StoreInvariant(store) && id !in store
    requires user.role == "admin"
    requires ReadArticleInput(body, now, parseDate).Success?
    ensures var out := CreateArticle(store, Success(Some(user)), body, id, now, parseDate, timestamp, tag);
      && (out.1.Created? <==> JsLength(ReadArticleInput(body, now, parseDate).value.title) <= MaxTitleLength)
      && (out.1.CreateFailed? ==> out.1.reply == ErrorReply(400, "Validation failed"))
      && (out.1.Created? ==> StoreInvariant(out.0))
  {
    var input := ReadArticleInput(body, now, parseDate).value;
    var doc := InputDoc(id, input, now);
    assert FieldsAcceptable(doc, now) <==> JsLength(input.title) <= MaxTitleLength;
    SavePreservesInvariant(store, doc, now, timestamp, tag);
  }
}

=== FILE: auth.dfy ===
/** The session manager of src/lib/auth.ts over an explicit session
    collection. The clock (`now`, milliseconds) and the 32 random bytes
    behind each session id are parameters. */
module Auth {
  import opened Wrappers
  import opened Text
  import opened SessionModel

  datatype AuthUser = AuthUser(name: string, role: string)

  /** The single principal every valid session stands for (src/lib/auth.ts:58-61). */
  const AdminUser := AuthUser("Parmeet", "admin")

  const DefaultSessionHours := 24

  /** Options of `createSession`; an empty `ipAddress` or `userAgent` is an unset one. */
  datatype SessionOptions = SessionOptions(ipAddress: string, userAgent: string, expirationHours: Option<int>)

  /** The store after an operation, and what the operation returned or threw. */
  datatype Outcome<+T> = Outcome(store: SessionStore, result: Result<T, SessionError>)

  /** The output of `crypto.randomBytes(32)`. */
  type Entropy = b: seq<Byte> | |b| == 32 witness seq(32, i => 0)

  /** `generateSecureSessionId`: the base-36 clock, an underscore, and the
      64 hex digits of the random bytes. */
  function GenerateSessionId(now: int, entropy: Entropy): (id: string)
    ensures |id| >= 66 >= MinSessionIdLength
    ensures NoJsSpace(id)
    ensures id[|id| - 65] == '_'
    ensures forall i :: |id| - 64 <= i < |id| ==> IsHexDigit(id[i])
    // the text before the underscore is the clock, the text after it the bytes
    ensures id[..|id| - 65] == IntToRadix(now, 36)
    ensures HexToBytes(id[|id| - 64..]) == entropy
  {
    var stamp := IntToRadix(now, 36);
    var hex := BytesToHex(entropy);
    var id := stamp + "_" + hex;
    assert forall i :: 0 <= i < |stamp| ==> id[i] == stamp[i];
    assert forall i :: |id| - 64 <= i < |id| ==> id[i] == hex[i - |stamp| - 1];
    assert id[..|stamp|] == stamp;
    assert id[|stamp| + 1..] == hex;
    HexRoundTrip(entropy);
    id
  }

  /** Two ids are equal exactly when they were made at the same instant
      from the same random bytes. */
  lemma SessionIdInjective(t1: int, e1: Entropy, t2: int, e2: Entropy)
    ensures GenerateSessionId(t1, e1) == GenerateSessionId(t2, e2) <==> t1 == t2 && e1 == e2
  {
    var id1, id2 := GenerateSessionId(t1, e1), GenerateSessionId(t2, e2);
    if id1 == id2 {
      IntToRadixInjective(t1, t2, 36);
    }
  }

  /** `options.expirationHours || 24`, in milliseconds: an unset or zero
      lifetime means 24 hours; any other value, negative ones included, is
      taken as given. */
  function Lifetime(expirationHours: Option<int>): (ms: int)
    ensures expirationHours == None || expirationHours == Some(0) ==> ms == 86_400_000
    ensures expirationHours.Some? && expirationHours.value != 0 ==> ms == expirationHours.value * MillisPerHour
    ensures ms > 0 <==> expirationHours == None || expirationHours.value >= 0
  {
    var hours := if expirationHours == None || expirationHours == Some(0) then DefaultSessionHours
                 else expirationHours.value;
    hours * MillisPerHour
  }

  /** `deleteAllUserSessions`: `deleteMany({ userId })`; the query value goes
      through the same `trim` setter as the stored one. */
  function DeleteAllUserSessions(store: SessionStore, userId: string): (r: SessionStore)
    ensures forall id :: id in r <==> id in store && store[id].userId != Trim(userId)
    ensures forall id :: id in r ==> r[id] == store[id]
  {
    Without(store, Trim(userId))
  }

  /** The sessions not owned by `owner`. */
  function Without(store: SessionStore, owner: string): (r: SessionStore)
    ensures forall id :: id in r <==> id in store && store[id].userId != owner
    ensures forall id :: id in r ==> r[id] == store[id]
  {
    map id | id in store && store[id].userId != owner :: store[id]
  }

  /** Clearing an owner's sessions and inserting one record for that owner
      leaves the owner with that record alone and everyone else untouched. */
  lemma ReplaceFrame(store: SessionStore, owner: string, id: string, record: Session, errs: seq<SessionField>)
    requires record.userId == owner
    ensures var r := Insert(Without(store, owner), id, record, errs);
      && (forall k :: k in r.store && r.store[k].userId == owner ==> r.result.Success? && k == r.result.value)
      && (forall k :: k in store && store[k].userId != owner ==> k in r.store && r.store[k] == store[k])
      && (forall k :: k in r.store ==> (k in store && store[k].userId != owner) || (r.result.Success? && k == r.result.value))
  {
  }

  /** The options and user the new record's validators accept. */
  predicate OptionsAccepted(userId: string, options: SessionOptions) {
    && |Trim(userId)| > 0
    && IpAddressAccepted(options.ipAddress)
    && JsLength(Trim(options.userAgent)) <= MaxUserAgentLength
  }

  /** What `createSession` asks of its inputs for the insert to go through. */
  predicate CreateAccepted(store: SessionStore, userId: string, options: SessionOptions, now: int, entropy: Entropy) {
    var id := GenerateSessionId(now, entropy);
    && Lifetime(options.expirationHours) > 0
    && OptionsAccepted(userId, options)
    && !(id in store && store[id].userId != Trim(userId))
  }

  /** The record `createSession` builds passes its validators exactly when
      the options are acceptable and the lifetime is positive. */
  lemma NewRecordValid(userId: string, options: SessionOptions, now: int, entropy: Entropy)
    ensures var record := NewSession(Some(userId), now + Lifetime(options.expirationHours), now, options.ipAddress, options.userAgent);
      |SessionErrors(GenerateSessionId(now, entropy), record, now)| == 0
      <==> Lifetime(options.expirationHours) > 0 && OptionsAccepted(userId, options)
  {
    var id := GenerateSessionId(now, entropy);
    TrimFixesSolidEnds(id);
    TrimIdempotent(userId);
    TrimIdempotent(options.userAgent);
    IpAcceptedUnderTrim(options.ipAddress);
  }

  /** `AdminSession.create(...)` given the validators' findings: the insert,
      which the unique index on `sessionId` refuses when the id is taken. */
  function Insert(store: SessionStore, id: string, record: Session, errs: seq<SessionField>): (r: Outcome<string>)
    ensures r.result.Success? <==> |errs| == 0 && id !in store
    ensures r.result.Failure? ==> r.store == store
    ensures r.result.Success? ==> r.result.value == id && r.store == store[id := record]
  {
    if |errs| > 0 then Outcome(store, Failure(Invalid(errs)))
    else if id in store then Outcome(store, Failure(DuplicateSessionId))
    else Outcome(store[id := record], Success(id))
  }

  /** `createSession` (src/lib/auth.ts:18-40): delete every session of the
      user, then insert one new record. When the insert fails, the deletion
      has already happened. */
  function CreateSession(store: SessionStore, userId: string, options: SessionOptions, now: int, entropy: Entropy)
    : (r: Outcome<string>)
    ensures r.result.Success? ==> r.result.value == GenerateSessionId(now, entropy)
    // afterwards the user holds the new session and nothing else
    ensures forall id :: id in r.store && r.store[id].userId == Trim(userId) ==>
      r.result.Success? && id == r.result.value
    // other users' sessions are untouched, and nothing else appears
    ensures forall id :: id in store && store[id].userId != Trim(userId) ==> id in r.store && r.store[id] == store[id]
    ensures forall id :: id in r.store ==>
      (id in store && store[id].userId != Trim(userId)) || (r.result.Success? && id == r.result.value)
    ensures r.result.Success? ==> r.result.value in r.store && r.store[r.result.value] == NewSession(Some(userId),
      now + Lifetime(options.expirationHours), now, options.ipAddress, options.userAgent)
    // every record left in the store still passes its validators
    ensures StoreWellFormed(store) ==> StoreWellFormed(r.store)
  {
    var id := GenerateSessionId(now, entropy);
    var cleared := DeleteAllUserSessions(store, userId);
    var record := NewSession(Some(userId), now + Lifetime(options.expirationHours), now, options.ipAddress, options.userAgent);
    var errs := SessionErrors(id, record, now);
    ReplaceFrame(store, Trim(userId), id, record, errs);
    WithoutKeepsWellFormed(store, Trim(userId));
    InsertKeepsWellFormed(cleared, id, record, errs, now);
    Insert(cleared, id, record, errs)
  }

  /** The insert goes through exactly when the lifetime is positive, the
      record's fields pass their validators and the new id is not held by
      another user's session. */
  lemma CreateSessionSucceedsWhen(store: SessionStore, userId: string, options: SessionOptions, now: int, entropy: Entropy)
    ensures CreateSession(store, userId, options, now, entropy).result.Success?
      <==> CreateAccepted(store, userId, options, now, entropy)
  {
    var id := GenerateSessionId(now, entropy);
    var cleared := DeleteAllUserSessions(store, userId);
    var record := NewSession(Some(userId), now + Lifetime(options.expirationHours), now, options.ipAddress, options.userAgent);
    var errs := SessionErrors(id, record, now);
    assert CreateSession(store, userId, options, now, entropy).result == Insert(cleared, id, record, errs).result;
    NewRecordValid(userId, options, now, entropy);
    InsertOutcome(store, Trim(userId), id, record, errs);
  }

  lemma InsertOutcome(store: SessionStore, owner: string, id: string, record: Session, errs: seq<SessionField>)
    ensures Insert(Without(store, owner), id, record, errs).result.Success?
      <==> |errs| == 0 && !(id in store && store[id].userId != owner)
  {
  }

  /** The new session is live and belongs to the user. */
  lemma CreatedSessionIsLive(store: SessionStore, userId: string, options: SessionOptions, now: int, entropy: Entropy)
    requires CreateSession(store, userId, options, now, entropy).result.Success?
    ensures var r := CreateSession(store, userId, options, now, entropy);
      && r.store[r.result.value].userId == Trim(userId)
      && r.store[r.result.value].expiresAt == now + Lifetime(options.expirationHours)
      && IsLive(r.store[r.result.value], now)
  {
    CreateSessionSucceedsWhen(store, userId, options, now, entropy);
  }

  /** The session a token names, if it is live: `findOne({ sessionId, expiresAt: { $gt: now } })`. */
  predicate Finds(store: SessionStore, sessionId: string, now: int) {
    |sessionId| > 0 && Trim(sessionId) in store && IsLive(store[Trim(sessionId)], now)
  }

  /** `validateSession` (src/lib/auth.ts:42-62): the admin principal for a
      live session, whose access time is refreshed and saved; nothing for an
      empty, unknown or dead token. */
  function ValidateSession(store: SessionStore, sessionId: string, now: int): (r: Outcome<Option<AuthUser>>)
    ensures !Finds(store, sessionId, now) ==> r == Outcome(store, Success(None))
    ensures r.result.Success? && r.result.value.Some? ==>
      && Finds(store, sessionId, now)
      && r.result.value == Some(AdminUser)
      && var key := Trim(sessionId);
      && r.store == store[key := store[key].(lastAccessedAt := now)]
    ensures r.result.Failure? ==> r.store == store
  {
    if !Finds(store, sessionId, now) then Outcome(store, Success(None))
    else
      var key := Trim(sessionId);
      var touched := store[key].(lastAccessedAt := now);
      match SaveExisting(store, key, touched, now)
      case Success(s) => Outcome(s, Success(Some(AdminUser)))
      case Failure(e) => Outcome(store, Failure(e))
  }

  /** `extendSession` (src/lib/auth.ts:64-81): only a live session is
      extended, to `now + hours`, counted from now; `hours` defaults to 24
      only when absent. A non-positive `hours` makes the save fail. */
  function ExtendSession(store: SessionStore, sessionId: string, hours: Option<int>, now: int): (r: Outcome<bool>)
    ensures !Finds(store, sessionId, now) ==> r == Outcome(store, Success(false))
    ensures r.result == Success(true) ==>
      && Finds(store, sessionId, now)
      && var key := Trim(sessionId);
      && r.store == store[key := Extend(store[key], hours.GetOr(DefaultSessionHours), now)]
      && IsLive(r.store[key], now)
    ensures r.result.Failure? ==> r.store == store
    ensures Finds(store, sessionId, now) && StaticFieldsValid(Trim(sessionId), store[Trim(sessionId)]) ==>
      (r.result == Success(true) <==> hours.GetOr(DefaultSessionHours) > 0)
  {
    if !Finds(store, sessionId, now) then Outcome(store, Success(false))
    else
      var key := Trim(sessionId);
      var extended := Extend(store[key], hours.GetOr(DefaultSessionHours), now);
      ExtendKeepsStaticFields(key, store[key], hours.GetOr(DefaultSessionHours), now);
      match SaveExisting(store, key, extended, now)
      case Success(s) => Outcome(s, Success(true))
      case Failure(e) => Outcome(store, Failure(e))
  }

  /** `deleteSession` (src/lib/auth.ts:83-88): removes the record with that
      id, if any; an empty id does nothing. */
  function DeleteSession(store: SessionStore, sessionId: string): (r: SessionStore)
    ensures |sessionId| == 0 ==> r == store
    ensures |sessionId| > 0 ==> Trim(sessionId) !in r
    ensures forall id :: id in r <==> id in store && (|sessionId| == 0 || id != Trim(sessionId))
    ensures forall id :: id in r ==> r[id] == store[id]
  {
    if |sessionId| == 0 then store else store - {Trim(sessionId)}
  }

  /** Deleting twice is deleting once. */
  lemma DeleteSessionIdempotent(store: SessionStore, sessionId: string)
    ensures DeleteSession(DeleteSession(store, sessionId), sessionId) == DeleteSession(store, sessionId)
  {
  }

  /** The sessions `cleanupExpiredSessions` removes. */
  function ExpiredIds(store: SessionStore, now: int): set<string> {
    set id | id in store && IsExpired(store[id], now)
  }

  /** `cleanupExpiredSessions` (src/lib/auth.ts:95-101): removes exactly
      the sessions with `expiresAt < now` and reports how many. */
  function CleanupExpiredSessions(store: SessionStore, now: int): (r: (SessionStore, nat))
    ensures forall id :: id in r.0 <==> id in store && !IsExpired(store[id], now)
    ensures forall id :: id in r.0 ==> r.0[id] == store[id]
    ensures r.1 + |r.0| == |store|
    ensures r.1 == |ExpiredIds(store, now)|
  {
    var kept := CleanupExpired(store, now);
    var gone := ExpiredIds(store, now);
    assert kept.Keys == store.Keys - gone;
    assert store.Keys == kept.Keys + gone;
    assert |store.Keys| == |kept.Keys| + |gone|;
    (kept, |gone|)
  }

  // ---------------------------------------------------------------------
  // Properties of the session lifecycle

  /** A failed create still deletes: with a negative lifetime the user ends
      up with no session at all. */
  lemma NegativeLifetimeFailsClosed(store: SessionStore, userId: string, options: SessionOptions, now: int, entropy: Entropy)
    requires options.expirationHours.Some? && options.expirationHours.value < 0
    ensures var r := CreateSession(store, userId, options, now, entropy);
      && r.result.Failure?
      && forall id :: id in r.store ==> r.store[id].userId != Trim(userId)
  {
    CreateSessionSucceedsWhen(store, userId, options, now, entropy);
  }

  lemma WithoutKeepsWellFormed(store: SessionStore, owner: string)
    ensures StoreWellFormed(store) ==> StoreWellFormed(Without(store, owner))
  {
  }

  lemma InsertKeepsWellFormed(store: SessionStore, id: string, record: Session, errs: seq<SessionField>, now: int)
    requires errs == SessionErrors(id, record, now)
    ensures StoreWellFormed(store) ==> StoreWellFormed(Insert(store, id, record, errs).store)
  {
  }

  /** On a well-formed store validation never throws, and it answers with
      the admin exactly for a live session. */
  lemma ValidateOnWellFormed(store: SessionStore, sessionId: string, now: int)
    requires StoreWellFormed(store)
    ensures var r := ValidateSession(store, sessionId, now);
      && r.result.Success?
      && (r.result.value == Some(AdminUser) <==> Finds(store, sessionId, now))
      && (r.result.value == None <==> !Finds(store, sessionId, now))
  {
    if Finds(store, sessionId, now) {
      var key := Trim(sessionId);
      TouchKeepsStaticFields(key, store[key], now);
    }
  }

  lemma TouchKeepsStaticFields(id: string, s: Session, now: int)
    requires StaticFieldsValid(id, s)
    ensures StaticFieldsValid(id, s.(lastAccessedAt := now))
  {
    var t := s.(lastAccessedAt := now);
    assert t.userId == s.userId && t.ipAddress == s.ipAddress && t.userAgent == s.userAgent;
  }

  /** Logging in again revokes the previous token: after two successful
      creates for one user, at different instants or from different random
      bytes, only the second one validates. */
  lemma SecondLoginRevokesFirst(store: SessionStore, userId: string, first: SessionOptions, second: SessionOptions,
                                t1: int, e1: Entropy, t2: int, e2: Entropy, now: int)
    requires CreateSession(store, userId, first, t1, e1).result.Success?
    requires CreateSession(CreateSession(store, userId, first, t1, e1).store, userId, second, t2, e2).result.Success?
    requires t1 != t2 || e1 != e2
    ensures var s1 := CreateSession(store, userId, first, t1, e1).store;
      var s2 := CreateSession(s1, userId, second, t2, e2).store;
      && ValidateSession(s2, GenerateSessionId(t1, e1), now) == Outcome(s2, Success(None))
      && (now < t2 + Lifetime(second.expirationHours) ==> Finds(s2, GenerateSessionId(t2, e2), now))
  {
    var id1, id2 := GenerateSessionId(t1, e1), GenerateSessionId(t2, e2);
    var s1 := CreateSession(store, userId, first, t1, e1).store;
    var s2 := CreateSession(s1, userId, second, t2, e2).store;
    SessionIdInjective(t1, e1, t2, e2);
    TrimFixesNoSpace(id1);
    TrimFixesNoSpace(id2);
    assert id1 in s1 && s1[id1].userId == Trim(userId) by {
      CreatedSessionIsLive(store, userId, first, t1, e1);
    }
    assert id1 !in s2;
    CreatedSessionIsLive(s1, userId, second, t2, e2);
  }

  /** A session whose expiry is exactly `now` is in limbo: validation and
      extension refuse it, yet cleanup keeps it. */
  lemma ExpiryInstantIsLimbo(store: SessionStore, sessionId: string, now: int, hours: Option<int>)
    requires |sessionId| > 0 && Trim(sessionId) in store && store[Trim(sessionId)].expiresAt == now
    ensures ValidateSession(store, sessionId, now) == Outcome(store, Success(None))
    ensures ExtendSession(store, sessionId, hours, now) == Outcome(store, Success(false))
    ensures Trim(sessionId) in CleanupExpiredSessions(store, now).0
  {
  }

  /** Extension counts from now, not from the old expiry: a session about to
      lapse, extended by one hour, lives one hour from now. */
  lemma ExtendCountsFromNow(store: SessionStore, sessionId: string, hours: int, now: int)
    requires ExtendSession(store, sessionId, Some(hours), now).result == Success(true)
    ensures ExtendSession(store, sessionId, Some(hours), now).store[Trim(sessionId)].expiresAt == now + hours * MillisPerHour
  {
  }

  // ---------------------------------------------------------------------
  // Credentials (src/lib/auth.ts:156-161)

  datatype Credentials = Credentials(username: string, password: string)

  /** `ADMIN_USERNAME` and `ADMIN_PASSWORD` as found in the environment. */
  datatype Environment = Environment(adminUsername: Option<string>, adminPassword: Option<string>)

  /** `value || fallback` on an optional string: unset and empty both fall back. */
  function OrElse(value: Option<string>, fallback: string): (r: string)
    ensures value.Some? && |value.value| > 0 ==> r == value.value
    ensures value == None || value == Some("") ==> r == fallback
  {
    if value.Some? && |value.value| > 0 then value.value else fallback
  }

  /** The pair the login compares against: each variable, or its built-in fallback. */
  function Configured(env: Environment, fallback: Credentials): Credentials {
    Credentials(OrElse(env.adminUsername, fallback.username), OrElse(env.adminPassword, fallback.password))
  }

  /** `validateCredentials`: exact, case-sensitive equality on both fields. */
  function ValidateCredentials(username: string, password: string, env: Environment, fallback: Credentials): (ok: bool)
    ensures ok <==> Credentials(username, password) == Configured(env, fallback)
  {
    var expected := Configured(env, fallback);
    username == expected.username && password == expected.password
  }

  /** Setting a variable to the empty string cannot open the door to an
      empty field: with non-empty fallbacks, the accepted username and
      password are never empty. */
  lemma NoEmptyCredentials(username: string, password: string, env: Environment, fallback: Credentials)
    requires |fallback.username| > 0 && |fallback.password| > 0
    requires ValidateCredentials(username, password, env, fallback)
    ensures |username| > 0 && |password| > 0
  {
  }

  /** With both variables set to non-empty values the built-in fallback
      plays no part: exactly the configured pair is accepted. With neither
      set, or both set to `""`, exactly the fallback pair is. */
  lemma CredentialsFromEnvironment(username: string, password: string, env: Environment, f1: Credentials, f2: Credentials)
    ensures env.adminUsername.GetOr("") != "" && env.adminPassword.GetOr("") != "" ==>
      && ValidateCredentials(username, password, env, f1) == ValidateCredentials(username, password, env, f2)
      && (ValidateCredentials(username, password, env, f1) <==>
            Some(username) == env.adminUsername && Some(password) == env.adminPassword)
    ensures env.adminUsername.GetOr("") == "" && env.adminPassword.GetOr("") == "" ==>
      (ValidateCredentials(username, password, env, f1) <==> Credentials(username, password) == f1)
  {
  }
}

=== FILE: checks.dfy ===
/** An ordered list of checks where the first failing one decides the
    answer, the shape both the article body checks and the form validator
    follow. */
module Checks {
  import opened Wrappers

  /** The answer of the first check that fails; each check is whether it
      passes and what it answers when it does not. */
  function FirstFailure<T(==)>(checks: seq<(bool, T)>): (r: Option<T>)
    ensures r.None? <==> forall i :: 0 <= i < |checks| ==> checks[i].0
    ensures r.Some? ==> exists i :: 0 <= i < |checks| && !checks[i].0 && checks[i].1 == r.value
                                    && forall j :: 0 <= j < i ==> checks[j].0
  {
    if |checks| == 0 then None
    else if !checks[0].0 then Some(checks[0].1)
    else
      var r := FirstFailure(checks[1..]);
      assert forall i :: 1 <= i < |checks| ==> checks[i] == checks[1..][i - 1];
      if r.Some? then
        var i :| 0 <= i < |checks[1..]| && !checks[1..][i].0 && checks[1..][i].1 == r.value
                 && forall j :: 0 <= j < i ==> checks[1..][j].0;
        assert !checks[i + 1].0 && checks[i + 1].1 == r.value && forall j :: 0 <= j < i + 1 ==> checks[j].0;
        r
      else r
  }

  /** Five checks, spelled out. */
  lemma FirstOfFive<T>(a: (bool, T), b: (bool, T), c: (bool, T), d: (bool, T), e: (bool, T))
    ensures FirstFailure([a, b, c, d, e]) ==
      if !a.0 then Some(a.1) else if !b.0 then Some(b.1) else if !c.0 then Some(c.1)
      else if !d.0 then Some(d.1) else if !e.0 then Some(e.1) else None
  {
    var c0 := [a, b, c, d, e];
    assert c0[1..] == [b, c, d, e] && c0[1..][1..] == [c, d, e];
    assert c0[1..][1..][1..] == [d, e] && c0[1..][1..][1..][1..] == [e];
    assert [e][1..] == [];
    assert FirstFailure([e]) == if !e.0 then Some(e.1) else None;
    assert FirstFailure([d, e]) == if !d.0 then Some(d.1) else FirstFailure([e]);
    assert FirstFailure([c, d, e]) == if !c.0 then Some(c.1) else FirstFailure([d, e]);
    assert FirstFailure([b, c, d, e]) == if !b.0 then Some(b.1) else FirstFailure([c, d, e]);
  }
}

=== FILE: form_validation.dfy ===
/** The client-side form validator (src/utils/validation.ts): rules and
    form data in, an ordered map from field to its one error message out.

    A rules object is the sequence of its entries in `Object.entries` order;
    the error object is the sequence of its entries in `Object.keys` order,
    which is the rules' order restricted to the failing fields (both objects
    put integer-like keys first, so the orders agree). `pattern` and
    `custom` are arbitrary predicates on the trimmed value. */
module FormValidation {
  import opened Wrappers
  import opened Text
  import opened Checks

  /** A field's rule. An absent bound is `None`; `required` absent is `false`. */
  datatype Rule = Rule(
    required: bool,
    minLength: Option<int>,
    maxLength: Option<int>,
    pattern: Option<string -> bool>,
    custom: Option<string -> Option<string>>)

  type Rules = seq<(string, Rule)>

  type Errors = seq<(string, string)>

  /** Field names of an object are distinct. */
  predicate DistinctNames<T>(entries: seq<(string, T)>) {
    forall i, j :: 0 <= i < j < |entries| ==> entries[i].0 != entries[j].0
  }

  function Names<T>(entries: seq<(string, T)>): set<string> {
    set i | 0 <= i < |entries| :: entries[i].0
  }

  /** A bound takes part only when it is truthy: present and not 0. */
  predicate BoundSet(b: Option<int>) {
    b.Some? && b.value != 0
  }

  /** `(data[field] || '').trim()` over the form's own keys; a name found
      only on `Object.prototype` reads as missing here. */
  function FieldValue(data: map<string, string>, field: string): (v: string)
    ensures |v| == 0 <==> field !in data || forall i :: 0 <= i < |data[field]| ==> IsJsSpace(data[field][i])
  {
    var raw := if field in data then data[field] else "";
    TrimEmptyIffAllSpace(raw);
    Trim(raw)
  }

  /** The custom check's message, when it is truthy (a non-empty string). */
  function CustomError(rule: Rule, value: string): (r: Option<string>)
    ensures r.Some? ==> |r.value| > 0
  {
    if rule.custom.Some? && rule.custom.value(value).Some? && |rule.custom.value(value).value| > 0
    then rule.custom.value(value) else None
  }

  function RequiredMessage(field: string): string {
    Capitalize(field) + " is required"
  }

  function MinLengthMessage(field: string, n: int): string {
    Capitalize(field) + " must be at least " + IntToString(n) + " characters"
  }

  function MaxLengthMessage(field: string, n: int): string {
    Capitalize(field) + " must be no more than " + IntToString(n) + " characters"
  }

  function FormatMessage(field: string): string {
    Capitalize(field) + " format is invalid"
  }

  /** The loop body for one field, given its trimmed value: each check,
      when it fails, records its message and moves on to the next field.
      Lengths are `trimmedValue.length`, in UTF-16 code units. */
  function FieldError(field: string, rule: Rule, value: string): (r: Option<string>)
    ensures |value| == 0 ==> (r.Some? <==> rule.required)
    ensures r.Some? ==> |r.value| > 0
  {
    if rule.required && |value| == 0 then Some(RequiredMessage(field))
    else if |value| == 0 then None
    else if BoundSet(rule.minLength) && JsLength(value) < rule.minLength.value then
      Some(MinLengthMessage(field, rule.minLength.value))
    else if BoundSet(rule.maxLength) && JsLength(value) > rule.maxLength.value then
      Some(MaxLengthMessage(field, rule.maxLength.value))
    else if rule.pattern.Some? && !rule.pattern.value(value) then Some(FormatMessage(field))
    else CustomError(rule, value)
  }

  /** `validateForm`, as the fold over the rules' entries. */
  function ValidateForm(data: map<string, string>, rules: Rules): (errors: Errors)
    ensures |errors| <= |rules|
    ensures Names(errors) <= Names(rules)
  {
    if |rules| == 0 then []
    else
      var (field, rule) := rules[0];
      var rest := ValidateForm(data, rules[1..]);
      assert Names(rules[1..]) <= Names(rules) by {
        forall i | 0 <= i < |rules[1..]| ensures rules[1..][i].0 in Names(rules) {
          assert rules[1..][i] == rules[i + 1];
        }
      }
      match FieldError(field, rule, FieldValue(data, field))
      case None => rest
      case Some(m) =>
        var e := [(field, m)] + rest;
        assert Names(e) <= Names(rules) by {
          forall i | 0 <= i < |e| ensures e[i].0 in Names(rules) {
            if i == 0 {
              assert e[0].0 == rules[0].0;
            } else {
              assert e[i] == rest[i - 1];
              assert rest[i - 1].0 in Names(rest);
            }
          }
        }
        [(field, m)] + rest
  }

  /** The error object entry one rule contributes: none, or its message. */
  function EntryFor(data: map<string, string>, field: string, rule: Rule): (e: Errors)
    ensures |e| <= 1
    ensures |e| == 1 <==> FieldError(field, rule, FieldValue(data, field)).Some?
    ensures |e| == 1 ==> e[0] == (field, FieldError(field, rule, FieldValue(data, field)).value)
  {
    match FieldError(field, rule, FieldValue(data, field))
    case None => []
    case Some(m) => [(field, m)]
  }

  /** Validating two groups of rules one after the other gives the two
      error lists one after the other. */
  lemma {:induction false} ValidateFormAppend(data: map<string, string>, a: Rules, b: Rules)
    ensures ValidateForm(data, a + b) == ValidateForm(data, a) + ValidateForm(data, b)
  {
    if |a| == 0 {
      assert a + b == b;
    } else {
      assert (a + b)[0] == a[0];
      assert (a + b)[1..] == a[1..] + b;
      ValidateFormAppend(data, a[1..], b);
    }
  }

  /** The `for ... of Object.entries(rules)` loop of `validateForm`: rules
      are visited in order and each failing field's message is added at the
      end of the error object (`errors[field] = ...` adds a new key, since
      the field names of an object are distinct). */
  method ValidateFormLoop(data: map<string, string>, rules: Rules) returns (errors: Errors)
    ensures errors == ValidateForm(data, rules)
  {
    errors := [];
    var k := 0;
    while k < |rules|
      invariant 0 <= k <= |rules|
      invariant errors == ValidateForm(data, rules[..k])
    {
      var (field, rule) := rules[k];
      ValidateFormStep(data, rules, k);
      var error := FieldError(field, rule, FieldValue(data, field));
      ghost var entry := EntryFor(data, field, rule);
      if error.Some? {
        assert entry == [(field, error.value)];
        errors := errors + [(field, error.value)];
      } else {
        assert entry == [];
      }
      k := k + 1;
    }
    assert rules[..|rules|] == rules;
  }

  /** One more rule adds its entry, if any, at the end. */
  lemma ValidateFormStep(data: map<string, string>, rules: Rules, k: nat)
    requires k < |rules|
    ensures ValidateForm(data, rules[..k + 1]) == ValidateForm(data, rules[..k]) + EntryFor(data, rules[k].0, rules[k].1)
  {
    assert rules[..k + 1] == rules[..k] + [rules[k]];
    assert [rules[k]][1..] == [];
    assert ValidateForm(data, [rules[k]]) == EntryFor(data, rules[k].0, rules[k].1);
    ValidateFormAppend(data, rules[..k], [rules[k]]);
  }

  /** A field has an error exactly when its own checks fail, and the error
      is what they say; the errors keep the rules' order. */
  lemma {:induction false} ErrorsAreFailingFields(data: map<string, string>, rules: Rules, field: string, message: string)
    requires DistinctNames(rules)
    ensures (field, message) in ValidateForm(data, rules) <==>
      exists j :: 0 <= j < |rules| && rules[j].0 == field
        && FieldError(field, rules[j].1, FieldValue(data, field)) == Some(message)
  {
    if |rules| > 0 {
      var rest := rules[1..];
      assert DistinctNames(rest) by {
        forall i, j | 0 <= i < j < |rest| ensures rest[i].0 != rest[j].0 {
          assert rest[i] == rules[i + 1] && rest[j] == rules[j + 1];
        }
      }
      ErrorsAreFailingFields(data, rest, field, message);
      var errs := ValidateForm(data, rules);
      var head := FieldError(rules[0].0, rules[0].1, FieldValue(data, rules[0].0));
      assert errs == (if head.Some? then [(rules[0].0, head.value)] else []) + ValidateForm(data, rest);
      if (field, message) in errs {
        if head.Some? && (field, message) == (rules[0].0, head.value) {
          assert rules[0].0 == field;
        } else {
          assert (field, message) in ValidateForm(data, rest);
          var j :| 0 <= j < |rest| && rest[j].0 == field
            && FieldError(field, rest[j].1, FieldValue(data, field)) == Some(message);
          assert rules[j + 1] == rest[j];
        }
      }
      if exists j :: 0 <= j < |rules| && rules[j].0 == field
          && FieldError(field, rules[j].1, FieldValue(data, field)) == Some(message) {
        var j :| 0 <= j < |rules| && rules[j].0 == field
          && FieldError(field, rules[j].1, FieldValue(data, field)) == Some(message);
        if j > 0 {
          assert rest[j - 1] == rules[j];
          assert (field, message) in ValidateForm(data, rest);
        }
      }
    }
  }

  /** With distinct rule names every field gets at most one error. */
  lemma {:induction false} OneErrorPerField(data: map<string, string>, rules: Rules)
    requires DistinctNames(rules)
    ensures DistinctNames(ValidateForm(data, rules))
  {
    if |rules| > 0 {
      var rest := rules[1..];
      assert DistinctNames(rest) by {
        forall i, j | 0 <= i < j < |rest| ensures rest[i].0 != rest[j].0 {
          assert rest[i] == rules[i + 1] && rest[j] == rules[j + 1];
        }
      }
      OneErrorPerField(data, rest);
      var tail := ValidateForm(data, rest);
      assert rules[0].0 !in Names(rest) by {
        forall i | 0 <= i < |rest| ensures rest[i].0 != rules[0].0 {
          assert rest[i] == rules[i + 1];
        }
      }
      var errs := ValidateForm(data, rules);
      if errs != tail {
        var e := errs[0];
        assert errs == [e] + tail;
        forall i, j | 0 <= i < j < |errs| ensures errs[i].0 != errs[j].0 {
          if i == 0 {
            assert errs[j] == tail[j - 1];
            assert tail[j - 1].0 in Names(tail);
          } else {
            assert errs[i] == tail[i - 1] && errs[j] == tail[j - 1];
          }
        }
      }
    }
  }

  /** The first check that fails, with its message: a blank optional field
      passes every check, and a blank required one fails the first. */
  function FieldChecks(field: string, rule: Rule, value: string): seq<(bool, string)> {
    var blank := |value| == 0;
    [ (!(rule.required && blank), RequiredMessage(field)),
      (blank || !BoundSet(rule.minLength) || JsLength(value) >= rule.minLength.value,
        MinLengthMessage(field, rule.minLength.GetOr(0))),
      (blank || !BoundSet(rule.maxLength) || JsLength(value) <= rule.maxLength.value,
        MaxLengthMessage(field, rule.maxLength.GetOr(0))),
      (blank || rule.pattern.None? || rule.pattern.value(value), FormatMessage(field)),
      (blank || CustomError(rule, value).None?, CustomError(rule, value).GetOr("")) ]
  }

  /** A field's error is the message of its first failing check, in the
      order required, minLength, maxLength, pattern, custom. */
  lemma FieldErrorIsFirstFailingCheck(field: string, rule: Rule, value: string)
    ensures FieldError(field, rule, value) == FirstFailure(FieldChecks(field, rule, value))
  {
    var c := FieldChecks(field, rule, value);
    assert c == [c[0], c[1], c[2], c[3], c[4]];
    FirstOfFive(c[0], c[1], c[2], c[3], c[4]);
  }

  /** A bound of 0 is falsy: it constrains nothing, like an absent one. */
  lemma ZeroBoundsImposeNothing(field: string, rule: Rule, value: string)
    ensures FieldError(field, rule.(minLength := Some(0)), value) == FieldError(field, rule.(minLength := None), value)
    ensures FieldError(field, rule.(maxLength := Some(0)), value) == FieldError(field, rule.(maxLength := None), value)
  {
  }

  /** A blank required field is told it is required, with the first letter
      of its name in upper case; a blank optional field has no error. */
  lemma BlankFields(data: map<string, string>, rules: Rules, j: nat)
    requires DistinctNames(rules) && j < |rules|
    requires |FieldValue(data, rules[j].0)| == 0
    ensures rules[j].1.required ==> (rules[j].0, RequiredMessage(rules[j].0)) in ValidateForm(data, rules)
    ensures !rules[j].1.required ==> rules[j].0 !in Names(ValidateForm(data, rules))
  {
    var field := rules[j].0;
    if rules[j].1.required {
      ErrorsAreFailingFields(data, rules, field, RequiredMessage(field));
    } else {
      var errs := ValidateForm(data, rules);
      forall k | 0 <= k < |rules| && rules[k].0 == field
        ensures FieldError(field, rules[k].1, FieldValue(data, field)).None?
      {
        assert k == j;
      }
      forall i | 0 <= i < |errs| ensures errs[i].0 != field {
        assert errs[i] in errs;
        ErrorsAreFailingFields(data, rules, errs[i].0, errs[i].1);
      }
    }
  }

  /** `hasValidationErrors`: the error object has a key. */
  function HasValidationErrors(errors: Errors): (b: bool)
    ensures b <==> Names(errors) != {}
  {
    assert |errors| > 0 ==> errors[0].0 in Names(errors);
    |errors| > 0
  }

  /** The form has errors exactly when some rule's field fails its checks. */
  lemma {:induction false} HasErrorsIffSomeFieldFails(data: map<string, string>, rules: Rules)
    ensures HasValidationErrors(ValidateForm(data, rules)) <==>
      exists j :: 0 <= j < |rules| && FieldError(rules[j].0, rules[j].1, FieldValue(data, rules[j].0)).Some?
  {
    if |rules| > 0 {
      HasErrorsIffSomeFieldFails(data, rules[1..]);
      if exists j :: 0 <= j < |rules| && FieldError(rules[j].0, rules[j].1, FieldValue(data, rules[j].0)).Some? {
        var j :| 0 <= j < |rules| && FieldError(rules[j].0, rules[j].1, FieldValue(data, rules[j].0)).Some?;
        if j > 0 {
          assert rules[1..][j - 1] == rules[j];
        }
      }
      if exists j :: 0 <= j < |rules[1..]| && FieldError(rules[1..][j].0, rules[1..][j].1, FieldValue(data, rules[1..][j].0)).Some? {
        var j :| 0 <= j < |rules[1..]| && FieldError(rules[1..][j].0, rules[1..][j].1, FieldValue(data, rules[1..][j].0)).Some?;
        assert rules[1..][j] == rules[j + 1];
      }
    }
  }

  /** `getFirstError` as written: `firstKey ? errors[firstKey] : null`
      also answers `null` when the first failing field's name is `""`. */
  function GetFirstError(errors: Errors): (r: Option<string>)
    ensures r.Some? ==> |errors| > 0 && r.value == errors[0].1
  {
    if |errors| > 0 && |errors[0].0| > 0 then Some(errors[0].1) else None
  }

  /** The first error message, with `null` only for an error-free form. */
  function FirstError(errors: Errors): (r: Option<string>)
    ensures r.None? <==> !HasValidationErrors(errors)
    ensures r.Some? ==> r.value == errors[0].1
  {
    if |errors| > 0 then Some(errors[0].1) else None
  }

  /** The two agree except when the first failing field is named `""`. */
  lemma GetFirstErrorDiffers(errors: Errors)
    ensures GetFirstError(errors) != FirstError(errors) <==> |errors| > 0 && errors[0].0 == ""
  {
  }

  /** A form whose only rule is a required field named `""` has an error,
      yet `getFirstError` reports none. */
  lemma GetFirstErrorMissesUnnamedField(data: map<string, string>, rule: Rule)
    requires "" !in data && rule.required
    ensures HasValidationErrors(ValidateForm(data, [("", rule)]))
    ensures GetFirstError(ValidateForm(data, [("", rule)])) == None
  {
    var rules := [("", rule)];
    assert rules[1..] == [];
    assert FieldValue(data, "") == "";
  }

  /** The first error is the message of the earliest rule whose field fails. */
  lemma {:induction false} FirstErrorIsEarliestFailure(data: map<string, string>, rules: Rules)
    ensures FirstError(ValidateForm(data, rules)).Some? ==>
      exists j :: 0 <= j < |rules|
        && FieldError(rules[j].0, rules[j].1, FieldValue(data, rules[j].0)) == FirstError(ValidateForm(data, rules))
        && forall i :: 0 <= i < j ==> FieldError(rules[i].0, rules[i].1, FieldValue(data, rules[i].0)).None?
  {
    if |rules| > 0 {
      var head := FieldError(rules[0].0, rules[0].1, FieldValue(data, rules[0].0));
      if head.None? {
        FirstErrorIsEarliestFailure(data, rules[1..]);
        if FirstError(ValidateForm(data, rules)).Some? {
          var rest := rules[1..];
          var j :| 0 <= j < |rest|
            && FieldError(rest[j].0, rest[j].1, FieldValue(data, rest[j].0)) == FirstError(ValidateForm(data, rest))
            && forall i :: 0 <= i < j ==> FieldError(rest[i].0, rest[i].1, FieldValue(data, rest[i].0)).None?;
          assert rules[j + 1] == rest[j];
          assert forall i :: 1 <= i < j + 1 ==> rules[i] == rest[i - 1];
        }
      }
    }
  }
}

=== FILE: json.dfy ===
/** Parsed JSON request bodies and the JavaScript reading of their
    properties: truthiness and property access on a non-null value. */
module JsonValues {
  import opened Wrappers

  /** A parsed JSON value. Numbers are integers; JSON cannot spell NaN. */
  datatype Json =
    | JNull
    | JBool(b: bool)
    | JNumber(n: int)
    | JString(s: string)
    | JArray(items: seq<Json>)
    | JObject(fields: map<string, Json>)

  /** JavaScript truthiness of a property value; `None` is `undefined`. */
  predicate Truthy(v: Option<Json>) {
    match v
    case None => false
    case Some(JNull) => false
    case Some(JBool(b)) => b
    case Some(JNumber(n)) => n != 0
    case Some(JString(s)) => |s| > 0
    case Some(_) => true
  }

  /** `body.key` on a value that is not `null`: only objects have own keys. */
  function Property(body: Json, key: string): (v: Option<Json>)
    requires body != JNull
    ensures v.Some? ==> body.JObject? && key in body.fields && v.value == body.fields[key]
    ensures body.JObject? && key in body.fields ==> v == Some(body.fields[key])
  {
    if body.JObject? && key in body.fields then Some(body.fields[key]) else None
  }
}

=== FILE: login_route.dfy ===
/** The login endpoint (src/app/api/auth/login/route.ts:5-71) over the
    session manager: request body in, status, cookie and session store out. */
module LoginRoute {
  import opened Wrappers
  import opened Text
  import opened SessionModel
  import opened Auth
  import opened JsonValues

  /** Request headers the route forwards to the session; `""` is an absent header. */
  datatype ClientInfo = ClientInfo(ipAddress: string, userAgent: string)

  datatype Cookie = Cookie(name: string, value: string, maxAgeSeconds: int, httpOnly: bool, path: string)

  datatype Response = Response(status: int, success: bool, message: string, cookie: Option<Cookie>)

  /** Login sessions last 24 hours; the cookie's `maxAge` is in seconds. */
  const LoginHours := 24
  const CookieMaxAge := 24 * 60 * 60

  function Fail(status: int, message: string): Response {
    Response(status, false, message, None)
  }

  /** A body that parsed and can be destructured: not a parse failure and not `null`. */
  predicate Readable(body: Option<Json>) {
    body.Some? && body.value != JNull
  }

  /** `!name || !password` is false: both fields are present and truthy. */
  predicate HasBothFields(body: Option<Json>)
    requires Readable(body)
  {
    Truthy(Property(body.value, "name")) && Truthy(Property(body.value, "password"))
  }

  /** The checks before any session is touched: `Some` of the refusal, or
      `None` when the body names the configured pair. Each status has
      exactly one cause. */
  function Refusal(body: Option<Json>, env: Environment, fallback: Credentials): (r: Option<Response>)
    ensures r.Some? ==> r.value.status in {400, 401, 500} && !r.value.success && r.value.cookie.None?
    ensures r == Some(Fail(500, "Internal server error")) <==> !Readable(body)
    ensures r == Some(Fail(400, "Username and password are required"))
      <==> Readable(body) && !HasBothFields(body)
    ensures r == Some(Fail(401, "Invalid credentials"))
      <==> Readable(body) && HasBothFields(body) && !NamesConfigured(body, env, fallback)
    ensures r.None? <==> Readable(body) && HasBothFields(body) && NamesConfigured(body, env, fallback)
    ensures (&& NamesConfigured(body, env, fallback)
             && |Configured(env, fallback).username| > 0
             && |Configured(env, fallback).password| > 0) ==> r.None?
  {
    if body.None? || body.value == JNull then Some(Fail(500, "Internal server error"))
    else
      var name := Property(body.value, "name");
      var password := Property(body.value, "password");
      if !Truthy(name) || !Truthy(password) then Some(Fail(400, "Username and password are required"))
      else if !(name.value.JString? && password.value.JString?
                && ValidateCredentials(name.value.s, password.value.s, env, fallback)) then
        Some(Fail(401, "Invalid credentials"))
      else None
  }

  /** `createSession(userId, { …client, expirationHours: 24 })` and the
      cookie; the route passes `'admin'`. */
  function IssueSession(store: SessionStore, userId: string, client: ClientInfo, now: int, entropy: Entropy)
    : (out: (SessionStore, Response))
    ensures out.1.status in {200, 500}
    ensures out.1.status == 200 <==> out.1.cookie.Some? && out.1.success
    // the answer and the store are the creation's: 200 exactly when it succeeded
    ensures var created := CreateSession(store, userId,
                                         SessionOptions(client.ipAddress, client.userAgent, Some(LoginHours)), now, entropy);
      && out.0 == created.store
      && (out.1.status == 200 <==> created.result.Success?)
      && (created.result.Success? ==> out.1.cookie.value.value == created.result.value)
  {
    var created := CreateSession(store, userId,
                                 SessionOptions(client.ipAddress, client.userAgent, Some(LoginHours)), now, entropy);
    match created.result
    case Failure(_) => (created.store, Fail(500, "Internal server error"))
    case Success(id) =>
      (created.store, Response(200, true, "Login successful", Some(Cookie("session", id, CookieMaxAge, true, "/"))))
  }

  /** The handler. `body == None` is a body `request.json()` cannot parse;
      destructuring a `null` body throws as well. Both land in the 500 branch. */
  function Login(store: SessionStore, body: Option<Json>, env: Environment, fallback: Credentials,
                 client: ClientInfo, now: int, entropy: Entropy): (out: (SessionStore, Response))
    ensures out.1.status in {200, 400, 401, 500}
    ensures out.1.success <==> out.1.status == 200
    ensures out.1.cookie.Some? <==> out.1.status == 200
    ensures out.1.status in {400, 401} ==> out.0 == store
    ensures out.1.status == 200 ==> NamesConfigured(body, env, fallback)
    ensures body.None? || body == Some(JNull) ==> out == (store, Fail(500, "Internal server error"))
  {
    match Refusal(body, env, fallback)
    case Some(refused) => (store, refused)
    case None => IssueSession(store, DefaultUserId, client, now, entropy)
  }

  /** A request naming the configured user and password. */
  predicate NamesConfigured(body: Option<Json>, env: Environment, fallback: Credentials) {
    && body.Some? && body.value.JObject?
    && "name" in body.value.fields && "password" in body.value.fields
    && body.value.fields["name"] == JString(Configured(env, fallback).username)
    && body.value.fields["password"] == JString(Configured(env, fallback).password)
  }

  /** A readable body whose name or password is missing or falsy (`null`,
      `false`, `0`, `""`), including a body that is not an object at all,
      is a 400 that leaves the sessions alone. */
  lemma MissingFieldIsBadRequest(store: SessionStore, body: Json, env: Environment, fallback: Credentials,
                                 client: ClientInfo, now: int, entropy: Entropy)
    requires body != JNull
    requires !Truthy(Property(body, "name")) || !Truthy(Property(body, "password"))
    ensures Login(store, Some(body), env, fallback, client, now, entropy)
      == (store, Fail(400, "Username and password are required"))
  {
  }

  /** Anything but the configured pair, sent as two non-empty strings, is a
      401 that leaves the sessions alone. */
  lemma WrongPasswordIsUnauthorized(store: SessionStore, body: Option<Json>, env: Environment, fallback: Credentials,
                                    client: ClientInfo, now: int, entropy: Entropy)
    requires body.Some? && body.value.JObject?
    requires Truthy(Property(body.value, "name")) && Truthy(Property(body.value, "password"))
    requires !NamesConfigured(body, env, fallback)
    ensures Login(store, body, env, fallback, client, now, entropy) == (store, Fail(401, "Invalid credentials"))
  {
  }

  /** Once the checks pass, the response is the session issue's. */
  lemma LoginDispatch(store: SessionStore, body: Option<Json>, env: Environment, fallback: Credentials,
                      client: ClientInfo, now: int, entropy: Entropy)
    ensures Refusal(body, env, fallback).None? ==>
      Login(store, body, env, fallback, client, now, entropy) == IssueSession(store, DefaultUserId, client, now, entropy)
    ensures Refusal(body, env, fallback).Some? ==>
      Login(store, body, env, fallback, client, now, entropy) == (store, Refusal(body, env, fallback).value)
  {
  }

  /** A successful login leaves exactly one admin session, the one the cookie
      names, alive for 24 hours, as long as the cookie; every other user's
      sessions are untouched. */
  lemma LoginReplacesAdminSession(store: SessionStore, body: Option<Json>, env: Environment, fallback: Credentials,
                                  client: ClientInfo, now: int, entropy: Entropy)
    requires Login(store, body, env, fallback, client, now, entropy).1.status == 200
    ensures var (s, resp) := Login(store, body, env, fallback, client, now, entropy);
      && NamesConfigured(body, env, fallback)
      && resp.cookie.value.name == "session"
      && resp.cookie.value.value in s
      && s[resp.cookie.value.value].userId == DefaultUserId
      && s[resp.cookie.value.value].expiresAt == now + resp.cookie.value.maxAgeSeconds * 1000
      && (forall id :: id in s && s[id].userId == DefaultUserId ==> id == resp.cookie.value.value)
      && (forall id :: id in store && store[id].userId != DefaultUserId ==> id in s && s[id] == store[id])
  {
    LoginDispatch(store, body, env, fallback, client, now, entropy);
    TrimFixesSolidEnds(DefaultUserId);
    IssueReplacesUserSession(store, DefaultUserId, client, now, entropy);
  }

  lemma IssueReplacesUserSession(store: SessionStore, userId: string, client: ClientInfo, now: int, entropy: Entropy)
    requires Trim(userId) == userId
    requires IssueSession(store, userId, client, now, entropy).1.status == 200
    ensures var (s, resp) := IssueSession(store, userId, client, now, entropy);
      && resp.cookie.value.name == "session"
      && resp.cookie.value.value in s
      && s[resp.cookie.value.value].userId == userId
      && s[resp.cookie.value.value].expiresAt == now + resp.cookie.value.maxAgeSeconds * 1000
      && (forall id :: id in s && s[id].userId == userId ==> id == resp.cookie.value.value)
      && (forall id :: id in store && store[id].userId != userId ==> id in s && s[id] == store[id])
  {
    var options := SessionOptions(client.ipAddress, client.userAgent, Some(LoginHours));
    var created := CreateSession(store, userId, options, now, entropy);
    assert created.result.Success?;
    var id := created.result.value;
    var cookie := Cookie("session", id, CookieMaxAge, true, "/");
    assert IssueSession(store, userId, client, now, entropy) == (created.store, Response(200, true, "Login successful", Some(cookie)));
    assert created.store[id].expiresAt == now + CookieMaxAge * 1000 by {
      CreatedSessionIsLive(store, userId, options, now, entropy);
      assert Lifetime(Some(LoginHours)) == CookieMaxAge * 1000;
    }
  }

  /** A client address the validator refuses, such as a forwarded list
      `"a, b"`, makes a correct login fail with 500 after the admin's
      previous sessions were already deleted. */
  lemma RejectedAddressLogsEveryoneOut(store: SessionStore, body: Option<Json>, env: Environment, fallback: Credentials,
                                       client: ClientInfo, now: int, entropy: Entropy)
    requires NamesConfigured(body, env, fallback)
    requires |Configured(env, fallback).username| > 0 && |Configured(env, fallback).password| > 0
    requires !IpAddressAccepted(client.ipAddress)
    ensures var (s, resp) := Login(store, body, env, fallback, client, now, entropy);
      && resp == Fail(500, "Internal server error")
      && forall id :: id in s ==> s[id].userId != DefaultUserId
  {
    ConfiguredPairIssues(store, body, env, fallback, client, now, entropy);
    TrimFixesSolidEnds(DefaultUserId);
    IssueRefusesAddress(store, DefaultUserId, client, now, entropy);
  }

  /** The configured pair, when both values are non-empty, goes straight to the session issue. */
  lemma ConfiguredPairIssues(store: SessionStore, body: Option<Json>, env: Environment, fallback: Credentials,
                             client: ClientInfo, now: int, entropy: Entropy)
    requires NamesConfigured(body, env, fallback)
    requires |Configured(env, fallback).username| > 0 && |Configured(env, fallback).password| > 0
    ensures Login(store, body, env, fallback, client, now, entropy) == IssueSession(store, DefaultUserId, client, now, entropy)
  {
  }

  lemma IssueRefusesAddress(store: SessionStore, userId: string, client: ClientInfo, now: int, entropy: Entropy)
    requires Trim(userId) == userId
    requires !IpAddressAccepted(client.ipAddress)
    ensures var (s, resp) := IssueSession(store, userId, client, now, entropy);
      && resp == Fail(500, "Internal server error")
      && forall id :: id in s ==> s[id].userId != userId
  {
    var options := SessionOptions(client.ipAddress, client.userAgent, Some(LoginHours));
    CreateSessionSucceedsWhen(store, userId, options, now, entropy);
  }
}

=== FILE: middleware.dfy ===
/** The route wrappers of src/lib/middleware.ts: `withAuth`, `withOptionalAuth`
    and `withAdminAuth`, each deciding from the current-user lookup whether
    the wrapped handler runs and what it is told about the caller.

    The handler is a total function from what it is told to its response:
    its own failures are its own response and pass through the wrapper
    unchanged (the wrappers return the handler's promise without awaiting
    it, so a rejection of that promise is not caught by their `catch`). */
module Middleware {
  import opened Wrappers
  import opened SessionModel
  import opened Auth

  /** What the wrapped handler sees of the request: its `user` property. */
  datatype AuthenticatedRequest = AuthenticatedRequest(user: Option<AuthUser>)

  /** A wrapper's answer: the handler's own response, or a JSON error body
      `{ error }` with a status that the wrapper wrote itself. */
  datatype Reply<R> = Handled(response: R) | Rejected(status: int, error: string)

  /** The settled value of `await getCurrentUser()`: a user, `null`, or an
      exception (a rejected `validateSession`). */
  type Lookup = Result<Option<AuthUser>, SessionError>

  const AuthenticationRequired := "Authentication required"
  const AuthenticationFailed := "Authentication failed"
  const AdminAccessRequired := "Admin access required"

  /** `getCurrentUser` (src/lib/auth.ts:103-115) given the `session` cookie:
      no cookie or an empty one is `null`; otherwise the session is validated.
      `validateSession` is returned without being awaited, so its rejection
      escapes the `catch` and reaches the wrapper. */
  function CurrentUser(store: SessionStore, cookie: Option<string>, now: int): (r: Outcome<Option<AuthUser>>)
    ensures r.result.Success? && r.result.value.Some? ==>
      cookie.Some? && Finds(store, cookie.value, now) && r.result.value == Some(AdminUser)
    ensures (cookie.None? || cookie == Some("")) ==> r == Outcome(store, Success(None))
    ensures cookie.Some? && !Finds(store, cookie.value, now) ==> r == Outcome(store, Success(None))
  {
    if cookie.None? || |cookie.value| == 0 then Outcome(store, Success(None))
    else ValidateSession(store, cookie.value, now)
  }

  /** `withAuth`: 401 without a user, 500 when the lookup throws, and
      otherwise the handler, told who the user is. */
  function WithAuth<R>(handler: AuthenticatedRequest -> R, lookup: Lookup): (r: Reply<R>)
    ensures r.Handled? <==> lookup.Success? && lookup.value.Some?
    ensures r.Handled? ==> r.response == handler(AuthenticatedRequest(lookup.value))
    ensures r.Rejected? ==> r.status in {401, 500}
    ensures r.Rejected? && r.status == 401 <==> lookup == Success(None)
  {
    match lookup
    case Failure(_) => Rejected(500, AuthenticationFailed)
    case Success(None) => Rejected(401, AuthenticationRequired)
    case Success(Some(user)) => Handled(handler(AuthenticatedRequest(Some(user))))
  }

  /** `withOptionalAuth`: the handler always runs; it is told the user when
      there is one, and nothing when there is none or the lookup threw. */
  function WithOptionalAuth<R>(handler: AuthenticatedRequest -> R, lookup: Lookup): (r: Reply<R>)
    ensures r.Handled?
    ensures lookup.Success? ==> r.response == handler(AuthenticatedRequest(lookup.value))
    ensures lookup.Failure? ==> r.response == handler(AuthenticatedRequest(None))
  {
    match lookup
    case Success(user) => Handled(handler(AuthenticatedRequest(user)))
    case Failure(_) => Handled(handler(AuthenticatedRequest(None)))
  }

  /** `withAdminAuth`: 401 without a user, 403 for a user whose role is not
      exactly `"admin"`, 500 when the lookup throws, and otherwise the handler. */
  function WithAdminAuth<R>(handler: AuthenticatedRequest -> R, lookup: Lookup): (r: Reply<R>)
    ensures r.Handled? <==> lookup.Success? && lookup.value.Some? && lookup.value.value.role == "admin"
    ensures r.Handled? ==> r.response == handler(AuthenticatedRequest(lookup.value))
    ensures r.Rejected? ==> r.status in {401, 403, 500}
    ensures r.Rejected? && r.status == 403 <==> lookup.Success? && lookup.value.Some? && lookup.value.value.role != "admin"
  {
    match lookup
    case Failure(_) => Rejected(500, AuthenticationFailed)
    case Success(None) => Rejected(401, AuthenticationRequired)
    case Success(Some(user)) =>
      if user.role != "admin" then Rejected(403, AdminAccessRequired)
      else Handled(handler(AuthenticatedRequest(Some(user))))
  }

  /** A refusal is decided before the handler is consulted: any other handler
      gets the same refusal. */
  lemma RefusalIgnoresHandler<R>(h1: AuthenticatedRequest -> R, h2: AuthenticatedRequest -> R, lookup: Lookup)
    ensures WithAuth(h1, lookup).Rejected? ==> WithAuth(h2, lookup) == WithAuth(h1, lookup)
    ensures WithAdminAuth(h1, lookup).Rejected? ==> WithAdminAuth(h2, lookup) == WithAdminAuth(h1, lookup)
  {
  }

  /** The admin wrapper is the plain one plus the role check: it refuses
      everything the plain one refuses, in the same words, and otherwise
      answers like it exactly when the user is an admin. */
  lemma AdminRefinesAuth<R>(handler: AuthenticatedRequest -> R, lookup: Lookup)
    ensures WithAuth(handler, lookup).Rejected? ==> WithAdminAuth(handler, lookup) == WithAuth(handler, lookup)
    ensures WithAdminAuth(handler, lookup).Handled? ==> WithAuth(handler, lookup) == WithAdminAuth(handler, lookup)
    ensures WithAdminAuth(handler, lookup) != WithAuth(handler, lookup) <==>
      lookup.Success? && lookup.value.Some? && lookup.value.value.role != "admin"
  {
  }

  /** Whenever the plain wrapper lets a request through, the optional one
      gives the same response; it differs only by running the handler where
      the plain one refuses. */
  lemma OptionalAgreesWhenAuthenticated<R>(handler: AuthenticatedRequest -> R, lookup: Lookup)
    ensures WithAuth(handler, lookup).Handled? ==> WithOptionalAuth(handler, lookup) == WithAuth(handler, lookup)
    ensures WithAuth(handler, lookup).Rejected? ==>
      WithOptionalAuth(handler, lookup) == Handled(handler(AuthenticatedRequest(None)))
  {
  }

  /** Users come only from sessions, and every session user is the admin,
      so the 403 branch of `withAdminAuth` cannot be reached through
      `getCurrentUser`: both wrappers answer alike. */
  lemma SessionUsersPassAdminCheck<R>(handler: AuthenticatedRequest -> R, store: SessionStore, cookie: Option<string>, now: int)
    ensures var lookup := CurrentUser(store, cookie, now).result;
      WithAdminAuth(handler, lookup) == WithAuth(handler, lookup)
  {
    var lookup := CurrentUser(store, cookie, now).result;
    assert lookup.Success? && lookup.value.Some? ==> lookup.value.value.role == "admin";
  }

  /** On a store whose records all pass their validators the lookup never
      throws, so `withAuth` answers 401 or runs the handler, and it runs the
      handler exactly when the cookie names a live session. */
  lemma WellFormedStoreNeverFails<R>(handler: AuthenticatedRequest -> R, store: SessionStore, cookie: Option<string>, now: int)
    requires StoreWellFormed(store)
    ensures var reply := WithAuth(handler, CurrentUser(store, cookie, now).result);
      && (reply.Rejected? ==> reply.status == 401)
      && (reply.Handled? <==> cookie.Some? && Finds(store, cookie.value, now))
      && (reply.Handled? ==> reply.response == handler(AuthenticatedRequest(Some(AdminUser))))
  {
    if cookie.Some? && |cookie.value| > 0 {
      ValidateOnWellFormed(store, cookie.value, now);
    }
  }
}

=== FILE: number_text.dfy ===
/** `parseInt` with no radix argument, as section 19.2.5 of ECMA-262 defines
    it, on the integers this model uses for JavaScript numbers. The scan
    works on positions of the trimmed text rather than on its suffixes. */
module NumberText {
  import opened Wrappers
  import opened Text

  /** A digit of `radix` in either case. */
  predicate IsRadixDigit(c: char, radix: nat) {
    var d := ToLowerAscii(c);
    (IsDigit(d) || IsLowerLetter(d)) && DigitValue(d) < radix
  }

  /** The end of the longest run of `radix` digits in `s` starting at `from`. */
  function DigitRunEnd(s: string, from: nat, radix: nat): (e: nat)
    requires from <= |s|
    ensures from <= e <= |s|
    ensures forall i :: from <= i < e ==> IsRadixDigit(s[i], radix)
    ensures e < |s| ==> !IsRadixDigit(s[e], radix)
    decreases |s| - from
  {
    if from == |s| || !IsRadixDigit(s[from], radix) then from
    else DigitRunEnd(s, from + 1, radix)
  }

  /** `parseInt(s)`: leading white space is skipped, one `+` or `-` is read,
      then the magnitude. `None` is `NaN`: there were no digits. */
  function ParseInt(s: string): (r: Option<int>)
    // a number is only read where there is a digit to read
    ensures r.Some? ==> exists i :: 0 <= i < |s| && IsDigit(s[i])
    // and it is negative only after a leading minus sign
    ensures r.Some? && r.value < 0 ==> |TrimStart(s)| > 0 && TrimStart(s)[0] == '-'
  {
    var t := TrimStart(s);
    TrimStartIsSuffix(s);
    ParseMagnitudeHasDigit(t, 0);
    ParseMagnitudeHasDigit(t, 1);
    assert forall i :: 0 <= i < |t| ==> t[i] == s[|s| - |t| + i];
    if |t| > 0 && t[0] == '-' then
      match ParseMagnitude(t, 1)
      case None => None
      case Some(m) => Some(-(m as int))
    else if |t| > 0 && t[0] == '+' then ParseMagnitude(t, 1)
    else ParseMagnitude(t, 0)
  }

  /** The unsigned part of `u` from position `start`: a `0x` or `0X` prefix
      selects base 16, and the longest run of digits after that is the value. */
  function ParseMagnitude(u: string, start: nat): (r: Option<nat>)
    requires start <= |u|
  {
    var hex := start + 2 <= |u| && u[start] == '0' && (u[start + 1] == 'x' || u[start + 1] == 'X');
    var radix := if hex then 16 else 10;
    var begin := if hex then start + 2 else start;
    var end := DigitRunEnd(u, begin, radix);
    if end == begin then None else Some(ParseRadix(LowerAscii(u[begin..end]), radix))
  }

  /** A run of digits that ends at a non-digit, or at the end, is read up to there. */
  lemma DigitRunStops(s: string, from: nat, e: nat, radix: nat)
    requires from <= e <= |s|
    requires forall i :: from <= i < e ==> IsRadixDigit(s[i], radix)
    requires e == |s| || !IsRadixDigit(s[e], radix)
    ensures DigitRunEnd(s, from, radix) == e
  {
  }

  /** Lower-casing leaves decimal digits alone. */
  lemma LowerAsciiFixesDigits(s: string)
    requires forall i :: 0 <= i < |s| ==> IsDigit(s[i])
    ensures LowerAscii(s) == s
  {
  }

  /** Only the number zero is written with a leading `0`. */
  lemma {:induction false} LeadingZeroIsZero(m: nat)
    requires NatToRadix(m, 10)[0] == '0'
    ensures m == 0 && NatToRadix(m, 10) == "0"
  {
    var s := NatToRadix(m, 10);
    if m >= 10 {
      DivideByRadix(m, 10);
      var q := m / 10;
      assert s == NatToRadix(q, 10) + [DigitChar(m % 10)];
      assert s[0] == NatToRadix(q, 10)[0];
      LeadingZeroIsZero(q);
    }
  }

  /** The magnitude at `start` reads back the decimal digits of `m` written
      there, up to the first non-digit after them. */
  lemma ParseMagnitudeReadsDigits(u: string, start: nat, m: nat)
    requires start + |NatToRadix(m, 10)| <= |u|
    requires u[start..start + |NatToRadix(m, 10)|] == NatToRadix(m, 10)
    requires var e := start + |NatToRadix(m, 10)|; e == |u| || !IsRadixDigit(u[e], 10)
    requires m != 0 || start + 1 >= |u| || (u[start + 1] != 'x' && u[start + 1] != 'X')
    ensures ParseMagnitude(u, start) == Some(m)
  {
    var ds := NatToRadix(m, 10);
    var e := start + |ds|;
    assert u[start] == ds[0];
    if u[start] == '0' {
      LeadingZeroIsZero(m);
    }
    forall k | start <= k < e ensures IsRadixDigit(u[k], 10) {
      assert u[k] == ds[k - start];
    }
    DigitRunStops(u, start, e, 10);
    LowerAsciiFixesDigits(ds);
    ParseNatToRadix(m, 10);
  }

  /** `parseInt` reads back what `String(i)` writes, and stops at whatever
      follows that is not a digit; only after a lone `0` does an `x` or `X`
      change the reading, into a hexadecimal prefix. */
  lemma ParseIntReadsLeadingInteger(i: int, tail: string)
    requires |tail| == 0 || !IsRadixDigit(tail[0], 10)
    requires i != 0 || |tail| == 0 || (tail[0] != 'x' && tail[0] != 'X')
    ensures ParseInt(IntToString(i) + tail) == Some(i)
  {
    if i < 0 {
      ParseIntReadsNegative(i, tail);
    } else {
      ParseIntReadsNonNegative(i, tail);
    }
  }

  lemma ParseIntReadsNegative(i: int, tail: string)
    requires i < 0
    requires |tail| == 0 || !IsRadixDigit(tail[0], 10)
    ensures ParseInt(IntToString(i) + tail) == Some(i)
  {
    var ds := NatToRadix(-i, 10);
    var s := IntToString(i) + tail;
    assert s == "-" + ds + tail;
    assert s[1..1 + |ds|] == ds;
    assert TrimStart(s) == s;
    ParseMagnitudeReadsDigits(s, 1, -i);
  }

  lemma ParseIntReadsNonNegative(i: int, tail: string)
    requires i >= 0
    requires |tail| == 0 || !IsRadixDigit(tail[0], 10)
    requires i != 0 || |tail| == 0 || (tail[0] != 'x' && tail[0] != 'X')
    ensures ParseInt(IntToString(i) + tail) == Some(i)
  {
    var ds := NatToRadix(i, 10);
    var s := IntToString(i) + tail;
    assert s == ds + tail;
    assert s[0..|ds|] == ds;
    assert IsDigit(s[0]);
    assert TrimStart(s) == s;
    if i == 0 {
      assert |ds| == 1;
    }
    ParseMagnitudeReadsDigits(s, 0, i);
  }

  /** `parseInt` of a string with no digit where the number should start is `NaN`. */
  lemma ParseIntNeedsDigits(s: string)
    requires forall i :: 0 <= i < |s| ==> !IsDigit(s[i])
    ensures ParseInt(s) == None
  {
    var t := TrimStart(s);
    assert forall i :: 0 <= i < |t| ==> !IsDigit(t[i]) by {
      TrimStartIsSuffix(s);
      assert forall i :: 0 <= i < |t| ==> t[i] == s[|s| - |t| + i];
    }
    if |t| > 0 {
      ParseMagnitudeNeedsDigits(t, 1);
    }
    ParseMagnitudeNeedsDigits(t, 0);
  }

  /** A magnitude is only read where a decimal digit follows `start`: the
      first digit of the run, or the `0` of a `0x` prefix. */
  lemma ParseMagnitudeHasDigit(u: string, start: nat)
    ensures start <= |u| && ParseMagnitude(u, start).Some? ==> exists i :: start <= i < |u| && IsDigit(u[i])
  {
    if start < |u| && ParseMagnitude(u, start).Some? {
      assert IsDigit(u[start]);
    }
  }

  /** Without a digit at `start` there is no magnitude. */
  lemma ParseMagnitudeNeedsDigits(u: string, start: nat)
    requires start <= |u|
    requires start == |u| || !IsDigit(u[start])
    ensures ParseMagnitude(u, start) == None
  {
  }
}

=== FILE: session_model.dfy ===
/** The AdminSession document model: field validators (including the IP
    address check), the `isExpired` and `timeUntilExpiration` virtuals, the
    `extend` method and the `cleanupExpired` static
    (src/lib/models/AdminSession.ts). A collection is a finite map from
    session id to record. */
module SessionModel {
  import opened Wrappers
  import opened Text

  const MillisPerHour: int := 60 * 60 * 1000
  const MinSessionIdLength := 10
  const MaxUserAgentLength := 500
  const DefaultUserId := "admin"

  /** A stored session; an empty `ipAddress` or `userAgent` stands for an unset one. */
  datatype Session = Session(
    userId: string,
    expiresAt: int,
    lastAccessedAt: int,
    ipAddress: string,
    userAgent: string)

  type SessionStore = map<string, Session>

  datatype SessionField = SessionIdField | UserIdField | ExpiresAtField | IpAddressField | UserAgentField

  datatype SessionError =
    | Invalid(fields: seq<SessionField>)  // Mongoose ValidationError
    | DuplicateSessionId                  // E11000 from the unique index on sessionId

  /** `new AdminSession({...})`: the `trim` setters applied, `userId`
      defaulting to `'admin'` and `lastAccessedAt` to the current time. */
  function NewSession(userId: Option<string>, expiresAt: int, now: int, ipAddress: string, userAgent: string)
    : (s: Session)
    ensures userId == None ==> s.userId == DefaultUserId
    ensures s.lastAccessedAt == now && s.expiresAt == expiresAt
  {
    TrimFixesSolidEnds(DefaultUserId);
    Session(Trim(userId.GetOr(DefaultUserId)), expiresAt, now, Trim(ipAddress), Trim(userAgent))
  }

  /** The `isExpired` virtual: strictly past its expiry. */
  predicate IsExpired(s: Session, now: int): (expired: bool)
    ensures expired ==> !IsLive(s, now)
    ensures !expired && s.expiresAt != now ==> IsLive(s, now)
  {
    s.expiresAt < now
  }

  /** What the lookups of src/lib/auth.ts ask for: `expiresAt > now`. */
  predicate IsLive(s: Session, now: int) {
    s.expiresAt > now
  }

  /** At its exact expiry instant a session is neither live nor expired;
      otherwise it is exactly one of the two. */
  lemma LiveExpiredBoundary(s: Session, now: int)
    ensures !(IsLive(s, now) && IsExpired(s, now))
    ensures !IsLive(s, now) && !IsExpired(s, now) <==> s.expiresAt == now
  {
  }

  /** The `timeUntilExpiration` virtual: `max(0, expiresAt - now)`. */
  function TimeUntilExpiration(s: Session, now: int): (r: nat)
    ensures r == 0 <==> !IsLive(s, now)
    ensures IsLive(s, now) ==> now + r == s.expiresAt
  {
    if s.expiresAt - now > 0 then s.expiresAt - now else 0
  }

  /** The `extend(hours)` method before its `save()`: a new expiry counted
      from now, whatever the old one was, and the access time refreshed. */
  function Extend(s: Session, hours: int, now: int): (r: Session)
    ensures r.expiresAt - now == hours * MillisPerHour
    ensures r.lastAccessedAt == now
    ensures r.userId == s.userId && r.ipAddress == s.ipAddress && r.userAgent == s.userAgent
  {
    s.(expiresAt := now + hours * MillisPerHour, lastAccessedAt := now)
  }

  /** The `cleanupExpired` static: `deleteMany({ expiresAt: { $lt: now } })`. */
  function CleanupExpired(store: SessionStore, now: int): (r: SessionStore)
    ensures forall id :: id in r <==> id in store && !IsExpired(store[id], now)
    ensures forall id :: id in r ==> r[id] == store[id]
  {
    map id | id in store && !IsExpired(store[id], now) :: store[id]
  }

  // ---------------------------------------------------------------------
  // IP address validator (src/lib/models/AdminSession.ts:47-58)

  /** Splits on every occurrence of `sep`, like `String.prototype.split`. */
  function Split(s: string, sep: char): (r: seq<string>)
    ensures |r| >= 1
  {
    if |s| == 0 then [""]
    else
      var rest := Split(s[1..], sep);
      if s[0] == sep then [""] + rest else [[s[0]] + rest[0]] + rest[1..]
  }

  predicate Lacks(s: string, c: char) {
    forall i :: 0 <= i < |s| ==> s[i] != c
  }

  lemma {:induction false} SplitWithoutSep(s: string, sep: char)
    requires Lacks(s, sep)
    ensures Split(s, sep) == [s]
  {
    if |s| > 0 {
      SplitWithoutSep(s[1..], sep);
      assert [s[0]] + s[1..] == s;
    }
  }

  lemma {:induction false} SplitAtFirst(s: string, sep: char, i: nat)
    requires i < |s| && s[i] == sep && Lacks(s[..i], sep)
    ensures Split(s, sep) == [s[..i]] + Split(s[i + 1..], sep)
  {
    if i > 0 {
      assert s[1..][..i - 1] == s[1..i];
      assert s[1..][i - 1 + 1..] == s[i + 1..];
      SplitAtFirst(s[1..], sep, i - 1);
      assert [s[0]] + s[1..i] == s[..i];
    }
  }

  /** The text matched by `(?:P<sep>){n}L` with backtracking: some split of
      `s` into n pieces matching P, each followed by `sep`, and a last
      piece matching L. */
  predicate Groups(s: string, sep: char, piece: string -> bool, last: string -> bool, n: nat)
    decreases n
  {
    if n == 0 then last(s)
    else exists i | 0 <= i < |s| :: s[i] == sep && piece(s[..i]) && Groups(s[i + 1..], sep, piece, last, n - 1)
  }

  /** The split of `s` at every separator has the shape `(P sep){n} L`. */
  predicate SplitShape(s: string, sep: char, piece: string -> bool, last: string -> bool, n: nat) {
    var parts := Split(s, sep);
    && |parts| == n + 1
    && (forall j :: 0 <= j < n ==> piece(parts[j]))
    && last(parts[n])
  }

  /** When neither piece pattern can match the separator, the regex match
      is decided by the split of `s` at every separator. */
  lemma GroupsMeansSplit(s: string, sep: char, piece: string -> bool, last: string -> bool, n: nat)
    requires forall x :: piece(x) ==> Lacks(x, sep)
    requires forall x :: last(x) ==> Lacks(x, sep)
    ensures Groups(s, sep, piece, last, n) <==> SplitShape(s, sep, piece, last, n)
  {
    if Groups(s, sep, piece, last, n) {
      GroupsGiveSplit(s, sep, piece, last, n);
    }
    if SplitShape(s, sep, piece, last, n) {
      SplitGivesGroups(s, sep, piece, last, n);
    }
  }

  lemma {:induction false} GroupsGiveSplit(s: string, sep: char, piece: string -> bool, last: string -> bool, n: nat)
    requires forall x :: piece(x) ==> Lacks(x, sep)
    requires forall x :: last(x) ==> Lacks(x, sep)
    requires Groups(s, sep, piece, last, n)
    ensures SplitShape(s, sep, piece, last, n)
    decreases n, 1
  {
    if n == 0 {
      SplitWithoutSep(s, sep);
    } else {
      GroupsGiveSplitStep(s, sep, piece, last, n);
    }
  }

  lemma {:induction false} GroupsGiveSplitStep(s: string, sep: char, piece: string -> bool, last: string -> bool, n: nat)
    requires forall x :: piece(x) ==> Lacks(x, sep)
    requires forall x :: last(x) ==> Lacks(x, sep)
    requires n > 0 && Groups(s, sep, piece, last, n)
    ensures SplitShape(s, sep, piece, last, n)
    decreases n, 0
  {
    var i :| 0 <= i < |s| && s[i] == sep && piece(s[..i]) && Groups(s[i + 1..], sep, piece, last, n - 1);
    GroupsGiveSplit(s[i + 1..], sep, piece, last, n - 1);
    SplitShapeCons(s, sep, piece, last, n, i);
  }

  /** A first piece and separator in front of a split of shape n - 1 give a
      split of shape n. */
  lemma SplitShapeCons(s: string, sep: char, piece: string -> bool, last: string -> bool, n: nat, i: nat)
    requires forall x :: piece(x) ==> Lacks(x, sep)
    requires n > 0 && i < |s| && s[i] == sep && piece(s[..i])
    requires SplitShape(s[i + 1..], sep, piece, last, n - 1)
    ensures SplitShape(s, sep, piece, last, n)
  {
    var parts := Split(s, sep);
    var rest := Split(s[i + 1..], sep);
    assert parts == [s[..i]] + rest by {
      SplitAtFirst(s, sep, i);
    }
    assert |parts| == n + 1 && parts[0] == s[..i];
    forall j | 1 <= j < n ensures piece(parts[j]) {
      assert parts[j] == rest[j - 1];
    }
    assert parts[n] == rest[n - 1];
  }

  lemma {:induction false} SplitGivesGroups(s: string, sep: char, piece: string -> bool, last: string -> bool, n: nat)
    requires forall x :: piece(x) ==> Lacks(x, sep)
    requires forall x :: last(x) ==> Lacks(x, sep)
    requires SplitShape(s, sep, piece, last, n)
    ensures Groups(s, sep, piece, last, n)
    decreases n, 1
  {
    if Lacks(s, sep) {
      SplitWithoutSep(s, sep);
      assert n == 0 && last(s);
    } else {
      SplitGivesGroupsStep(s, sep, piece, last, n);
    }
  }

  lemma {:induction false} SplitGivesGroupsStep(s: string, sep: char, piece: string -> bool, last: string -> bool, n: nat)
    requires forall x :: piece(x) ==> Lacks(x, sep)
    requires forall x :: last(x) ==> Lacks(x, sep)
    requires SplitShape(s, sep, piece, last, n) && !Lacks(s, sep)
    ensures Groups(s, sep, piece, last, n)
    decreases n, 0
  {
    var i := FirstIndex(s, sep);
    SplitShapeUncons(s, sep, piece, last, n, i);
    SplitGivesGroups(s[i + 1..], sep, piece, last, n - 1);
    assert s[i] == sep && piece(s[..i]) && Groups(s[i + 1..], sep, piece, last, n - 1);
  }

  /** A split of shape n whose first separator is at `i` starts with a piece
      and continues with a split of shape n - 1. */
  lemma SplitShapeUncons(s: string, sep: char, piece: string -> bool, last: string -> bool, n: nat, i: nat)
    requires i < |s| && s[i] == sep && Lacks(s[..i], sep)
    requires SplitShape(s, sep, piece, last, n)
    ensures n > 0 && piece(s[..i]) && SplitShape(s[i + 1..], sep, piece, last, n - 1)
  {
    var parts := Split(s, sep);
    var rest := Split(s[i + 1..], sep);
    assert parts == [s[..i]] + rest by {
      SplitAtFirst(s, sep, i);
    }
    assert n > 0 by {
      assert |rest| >= 1;
    }
    assert piece(s[..i]) by {
      assert parts[0] == s[..i];
    }
    forall j | 0 <= j < n - 1 ensures piece(rest[j]) {
      assert rest[j] == parts[j + 1];
    }
    assert rest[n - 1] == parts[n];
  }

  /** Position of the first `c` in `s`, which must occur. */
  function FirstIndex(s: string, c: char): (i: nat)
    requires !Lacks(s, c)
    ensures i < |s| && s[i] == c && Lacks(s[..i], c)
  {
    if s[0] == c then 0
    else
      var j := FirstIndex(s[1..], c);
      assert s[1..][..j] == s[1..j + 1];
      j + 1
  }

  /** One alternative of `25[0-5]|2[0-4][0-9]|[01]?[0-9][0-9]?`, spelled out. */
  predicate OctetPattern(s: string) {
    || (|s| == 3 && s[0] == '2' && s[1] == '5' && '0' <= s[2] <= '5')
    || (|s| == 3 && s[0] == '2' && '0' <= s[1] <= '4' && IsDigit(s[2]))
    || (|s| == 3 && (s[0] == '0' || s[0] == '1') && IsDigit(s[1]) && IsDigit(s[2]))
    || (|s| == 2 && (s[0] == '0' || s[0] == '1') && IsDigit(s[1]))
    || (|s| == 2 && IsDigit(s[0]) && IsDigit(s[1]))
    || (|s| == 1 && IsDigit(s[0]))
  }

  predicate AllDigits(s: string) {
    forall i :: 0 <= i < |s| ==> IsDigit(s[i])
  }

  /** One to three decimal digits worth at most 255, leading zeros allowed. */
  predicate IsByteText(s: string) {
    1 <= |s| <= 3 && AllDigits(s) && ParseRadix(s, 10) <= 255
  }

  /** The octet pattern accepts exactly the byte texts. */
  lemma OctetPatternMeansByte(s: string)
    ensures OctetPattern(s) <==> IsByteText(s)
  {
    if 1 <= |s| <= 3 && AllDigits(s) {
      var d0 := DigitValue(s[0]);
      assert s[..0] == [];
      if |s| == 1 {
        assert ParseRadix(s, 10) == d0;
      } else {
        var d1 := DigitValue(s[1]);
        assert s[..1][..0] == [];
        assert ParseRadix(s[..1], 10) == d0;
        if |s| == 2 {
          assert ParseRadix(s, 10) == d0 * 10 + d1;
        } else {
          var d2 := DigitValue(s[2]);
          assert s[..2][..1] == s[..1];
          assert ParseRadix(s[..2], 10) == d0 * 10 + d1;
          assert ParseRadix(s, 10) == (d0 * 10 + d1) * 10 + d2;
        }
      }
    }
  }

  /** Up to four hexadecimal digits: `[0-9a-fA-F]{0,4}`. */
  predicate HexGroup(s: string) {
    |s| <= 4 && forall i :: 0 <= i < |s| ==> IsHexDigit(s[i])
  }

  const LocalhostSpellings: seq<string> := ["localhost", "127.0.0.1", "::1", "0:0:0:0:0:0:0:1"]

  /** `^(?:(?:OCTET)\.){3}(?:OCTET)$` */
  predicate Ipv4Pattern(s: string) {
    Groups(s, '.', OctetPattern, OctetPattern, 3)
  }

  /** `^([0-9a-fA-F]{0,4}:){2,7}[0-9a-fA-F]{0,4}$` */
  predicate Ipv6Pattern(s: string) {
    exists n | 2 <= n <= 7 :: Groups(s, ':', HexGroup, HexGroup, n)
  }

  /** The `ipAddress` validator, applied to the trimmed value. */
  predicate IpAddressAccepted(ip: string) {
    IpTextAccepted(Trim(ip))
  }

  /** What the validator accepts: unset, a localhost spelling, a dotted quad
      of bytes, or 2 to 7 colons between pieces of at most four hex digits. */
  lemma IpAddressAcceptedMeans(ip: string)
    ensures IpAddressAccepted(ip) <==>
      var t := Trim(ip);
      var quad := Split(t, '.');
      var pieces := Split(t, ':');
      || |t| == 0
      || t in LocalhostSpellings
      || (|quad| == 4 && forall j :: 0 <= j < 4 ==> IsByteText(quad[j]))
      || (3 <= |pieces| <= 8 && forall j :: 0 <= j < |pieces| ==> HexGroup(pieces[j]))
  {
    Ipv4PatternMeansDottedQuad(Trim(ip));
    Ipv6PatternMeansColonGroups(Trim(ip));
  }

  /** The alternatives of the `ipAddress` validator on an already trimmed value. */
  predicate IpTextAccepted(s: string) {
    |s| == 0 || s in LocalhostSpellings || Ipv4Pattern(s) || Ipv6Pattern(s)
  }

  /** The IPv4 branch accepts exactly four dot-separated groups of 1-3
      digits, each worth at most 255. */
  lemma Ipv4PatternMeansDottedQuad(s: string)
    ensures Ipv4Pattern(s) <==>
      var parts := Split(s, '.');
      |parts| == 4 && forall j :: 0 <= j < 4 ==> IsByteText(parts[j])
  {
    forall x | OctetPattern(x) ensures Lacks(x, '.') {
    }
    GroupsMeansSplit(s, '.', OctetPattern, OctetPattern, 3);
    var parts := Split(s, '.');
    forall j | 0 <= j < |parts| ensures OctetPattern(parts[j]) <==> IsByteText(parts[j]) {
      OctetPatternMeansByte(parts[j]);
    }
  }

  /** The IPv6 branch accepts exactly the strings with 2 to 7 colons whose
      colon-separated pieces are each 0 to 4 hex digits. */
  lemma Ipv6PatternMeansColonGroups(s: string)
    ensures Ipv6Pattern(s) <==>
      var parts := Split(s, ':');
      3 <= |parts| <= 8 && forall j :: 0 <= j < |parts| ==> HexGroup(parts[j])
  {
    HexGroupsLackColon();
    forall n | 2 <= n <= 7 ensures Groups(s, ':', HexGroup, HexGroup, n) <==> SplitShape(s, ':', HexGroup, HexGroup, n) {
      GroupsMeansSplit(s, ':', HexGroup, HexGroup, n);
    }
    var parts := Split(s, ':');
    if 3 <= |parts| <= 8 && forall j :: 0 <= j < |parts| ==> HexGroup(parts[j]) {
      assert SplitShape(s, ':', HexGroup, HexGroup, |parts| - 1);
    }
  }

  lemma HexGroupsLackColon()
    ensures forall x :: HexGroup(x) ==> Lacks(x, ':')
  {
    forall x | HexGroup(x) ensures Lacks(x, ':') {
    }
  }



  // ---------------------------------------------------------------------
  // Schema validators (src/lib/models/AdminSession.ts:14-67)

  /** The validators that do not depend on the clock; lengths are counted
      in UTF-16 code units, as JavaScript counts them. */
  predicate StaticFieldsValid(id: string, s: Session) {
    && JsLength(Trim(id)) >= MinSessionIdLength
    && |Trim(s.userId)| > 0
    && IpAddressAccepted(s.ipAddress)
    && JsLength(Trim(s.userAgent)) <= MaxUserAgentLength
  }

  /** The failing fields, in schema order. */
  function SessionErrors(id: string, s: Session, now: int): (errs: seq<SessionField>)
    ensures |errs| == 0 <==> StaticFieldsValid(id, s) && s.expiresAt > now
    ensures SessionIdField in errs <==> JsLength(Trim(id)) < MinSessionIdLength
    ensures UserIdField in errs <==> |Trim(s.userId)| == 0
    ensures ExpiresAtField in errs <==> s.expiresAt <= now
    ensures IpAddressField in errs <==> !IpAddressAccepted(s.ipAddress)
    ensures UserAgentField in errs <==> JsLength(Trim(s.userAgent)) > MaxUserAgentLength
  {
    var a := if JsLength(Trim(id)) < MinSessionIdLength then [SessionIdField] else [];
    var b := if |Trim(s.userId)| == 0 then [UserIdField] else [];
    var c := if s.expiresAt <= now then [ExpiresAtField] else [];
    var d := if !IpAddressAccepted(s.ipAddress) then [IpAddressField] else [];
    var e := if JsLength(Trim(s.userAgent)) > MaxUserAgentLength then [UserAgentField] else [];
    var errs := a + b + c + d + e;
    assert forall f :: f in errs <==> f in a || f in b || f in c || f in d || f in e;
    errs
  }

  /** `doc.save()` of the record under `id`: validators, then the write. The
      unique index is not consulted because the record keeps its own id. */
  function SaveExisting(store: SessionStore, id: string, s: Session, now: int)
    : (r: Result<SessionStore, SessionError>)
    ensures r.Success? <==> StaticFieldsValid(id, s) && s.expiresAt > now
    ensures r.Success? ==> r.value == store[id := s]
  {
    var errs := SessionErrors(id, s, now);
    if |errs| > 0 then Failure(Invalid(errs)) else Success(store[id := s])
  }

  /** Extending changes only the clock fields, which the static validators ignore;
      the new expiry is in the future exactly when `hours` is positive. */
  lemma ExtendKeepsStaticFields(id: string, s: Session, hours: int, now: int)
    ensures StaticFieldsValid(id, Extend(s, hours, now)) == StaticFieldsValid(id, s)
    ensures Extend(s, hours, now).expiresAt > now <==> hours > 0
  {
    var r := Extend(s, hours, now);
    assert r.userId == s.userId && r.ipAddress == s.ipAddress && r.userAgent == s.userAgent;
    if hours > 0 {
      assert hours * MillisPerHour >= MillisPerHour;
    } else {
      assert hours * MillisPerHour <= 0;
    }
  }

  /** The validator trims, so trimming first changes nothing. */
  lemma IpAcceptedUnderTrim(ip: string)
    ensures IpAddressAccepted(Trim(ip)) == IpAddressAccepted(ip)
  {
    TrimIdempotent(ip);
  }

  /** Every stored record passes the clock-independent validators. */
  predicate StoreWellFormed(store: SessionStore) {
    forall id :: id in store ==> StaticFieldsValid(id, store[id])
  }

  /** Reaping keeps exactly the unexpired records and keeps the store well formed. */
  lemma CleanupKeepsWellFormed(store: SessionStore, now: int)
    requires StoreWellFormed(store)
    ensures StoreWellFormed(CleanupExpired(store, now))
  {
  }
}

=== FILE: slug.dfy ===
/** Slug derivation for articles: the title normaliser of the first
    `pre('save')` hook, its fallback, and the linear uniqueness probe of the
    second hook (src/lib/models/Article.ts). */
module Slug {
  import opened Text

  predicate IsHyphen(c: char) { c == '-' }

  /** No two adjacent hyphens. */
  predicate NoDoubleHyphen(s: string) {
    forall i :: 0 <= i < |s| - 1 ==> !(s[i] == '-' && s[i + 1] == '-')
  }

  /** The shape every normalised title has: `[a-z0-9-]*`, no `--`, and no
      hyphen at either end. */
  predicate IsNormalSlug(s: string) {
    && AllSlugChars(s)
    && NoDoubleHyphen(s)
    && (|s| > 0 ==> s[0] != '-' && s[|s| - 1] != '-')
  }

  /** Characters surviving `.replace(/[^a-z0-9\s-]/g, '')`. */
  predicate Kept(c: char) { IsLowerLetter(c) || IsDigit(c) || IsJsSpace(c) || c == '-' }

  function StripDisallowed(s: string): (r: string)
    ensures |r| <= |s|
    ensures forall i :: 0 <= i < |r| ==> Kept(r[i])
  {
    if |s| == 0 then []
    else (if Kept(s[0]) then [s[0]] else []) + StripDisallowed(s[1..])
  }

  /** `.replace(/C+/g, '-')` for a character class C: every maximal run of
      class members becomes one hyphen. `inRun` says the previous character
      was already part of a replaced run. */
  function CollapseRuns(s: string, inClass: char -> bool, inRun: bool): string {
    if |s| == 0 then []
    else if inClass(s[0]) then (if inRun then [] else ['-']) + CollapseRuns(s[1..], inClass, true)
    else [s[0]] + CollapseRuns(s[1..], inClass, false)
  }

  /** `.replace(/(^-|-$)/g, '')`: drops one leading and one trailing hyphen. */
  function TrimHyphens(s: string): string {
    var a := if |s| > 0 && s[0] == '-' then s[1..] else s;
    if |a| > 0 && a[|a| - 1] == '-' then a[..|a| - 1] else a
  }

  /** The normaliser of src/lib/models/Article.ts:70-75, with `toLowerCase`
      restricted to ASCII. */
  function Normalise(title: string): (r: string)
    ensures IsNormalSlug(r)
  {
    var stripped := StripDisallowed(LowerAscii(title));
    var dashed := CollapseRuns(stripped, IsJsSpace, false);
    var squeezed := CollapseRuns(dashed, IsHyphen, false);
    SpaceRunsLeaveSlugChars(stripped, false);
    HyphenRunsSqueezed(dashed, false);
    TrimHyphensShape(squeezed);
    TrimHyphens(squeezed)
  }

  lemma {:induction false} SpaceRunsLeaveSlugChars(s: string, inRun: bool)
    requires forall i :: 0 <= i < |s| ==> Kept(s[i])
    ensures AllSlugChars(CollapseRuns(s, IsJsSpace, inRun))
  {
    if |s| > 0 {
      SpaceRunsLeaveSlugChars(s[1..], IsJsSpace(s[0]));
    }
  }

  lemma {:induction false} HyphenRunsSqueezed(s: string, inRun: bool)
    requires AllSlugChars(s)
    ensures var r := CollapseRuns(s, IsHyphen, inRun);
      && AllSlugChars(r)
      && NoDoubleHyphen(r)
      && (inRun ==> |r| == 0 || r[0] != '-')
  {
    if |s| > 0 {
      HyphenRunsSqueezed(s[1..], IsHyphen(s[0]));
    }
  }

  lemma TrimHyphensShape(s: string)
    requires AllSlugChars(s) && NoDoubleHyphen(s)
    ensures IsNormalSlug(TrimHyphens(s))
  {
    var a := if |s| > 0 && s[0] == '-' then s[1..] else s;
    assert AllSlugChars(a) && NoDoubleHyphen(a);
    assert |a| > 0 ==> a[0] != '-' || |a| == 1;
  }

  /** Normalising is the identity on a string already in normal form, so
      normalising twice is normalising once. */
  lemma NormaliseFixesNormalSlug(s: string)
    requires IsNormalSlug(s)
    ensures Normalise(s) == s
  {
    LowerAsciiFixesSlugChars(s);
    StripFixesKept(s);
    RunsFixIfAbsent(s, IsJsSpace, false);
    HyphenRunsFixIfSingle(s, false);
  }

  lemma NormaliseIdempotent(title: string)
    ensures Normalise(Normalise(title)) == Normalise(title)
  {
    NormaliseFixesNormalSlug(Normalise(title));
  }

  lemma {:induction false} LowerAsciiFixesSlugChars(s: string)
    requires AllSlugChars(s)
    ensures LowerAscii(s) == s
  {
    if |s| > 0 {
      LowerAsciiFixesSlugChars(s[1..]);
    }
  }

  lemma {:induction false} StripFixesKept(s: string)
    requires forall i :: 0 <= i < |s| ==> Kept(s[i])
    ensures StripDisallowed(s) == s
  {
    if |s| > 0 {
      StripFixesKept(s[1..]);
    }
  }

  lemma {:induction false} RunsFixIfAbsent(s: string, inClass: char -> bool, inRun: bool)
    requires forall i :: 0 <= i < |s| ==> !inClass(s[i])
    ensures CollapseRuns(s, inClass, inRun) == s
  {
    if |s| > 0 {
      RunsFixIfAbsent(s[1..], inClass, false);
    }
  }

  lemma {:induction false} HyphenRunsFixIfSingle(s: string, inRun: bool)
    requires NoDoubleHyphen(s)
    requires inRun ==> |s| == 0 || s[0] != '-'
    ensures CollapseRuns(s, IsHyphen, inRun) == s
  {
    if |s| > 0 {
      HyphenRunsFixIfSingle(s[1..], IsHyphen(s[0]));
    }
  }

  /** The tail of `Math.random().toString(36).substring(2, 8)`: at most six
      base-36 digits (possibly none). */
  type RandomTag = t: string | |t| <= 6 && forall i :: 0 <= i < |t| ==> IsDigit(t[i]) || IsLowerLetter(t[i])
    witness ""

  /** `'article-' + Date.now() + '-' + tag` (src/lib/models/Article.ts:79). */
  function Fallback(timestamp: int, tag: RandomTag): (r: string)
    ensures |r| > 0 && AllSlugChars(r)
    ensures |r| > 9 && r[..8] == "article-"
  {
    "article-" + IntToString(timestamp) + "-" + tag
  }

  /** The slug the first hook assigns: the normalised title, or the fallback
      when normalising leaves nothing. */
  function BaseSlug(title: string, timestamp: int, tag: RandomTag): (r: string)
    ensures |r| > 0 && AllSlugChars(r)
    ensures |Normalise(title)| > 0 ==> r == Normalise(title) && IsNormalSlug(r)
    ensures |Normalise(title)| == 0 ==> r == Fallback(timestamp, tag)
  {
    var n := Normalise(title);
    if |n| == 0 then Fallback(timestamp, tag) else n
  }

  /** The k-th probe candidate `${base}-${k}`. */
  function Candidate(base: string, k: nat): (r: string)
    ensures AllSlugChars(base) ==> AllSlugChars(r)
  {
    base + "-" + IntToString(k)
  }

  lemma CandidateInjective(base: string, j: nat, k: nat)
    requires Candidate(base, j) == Candidate(base, k)
    ensures j == k
  {
    assert Candidate(base, j)[|base| + 1..] == IntToString(j);
    assert Candidate(base, k)[|base| + 1..] == IntToString(k);
    IntToStringInjectiveOnNat(j, k);
  }

  /** The first `m` candidates, as a set. */
  function CandidateSet(base: string, m: nat): (c: set<string>)
    ensures forall j :: 1 <= j <= m ==> Candidate(base, j) in c
  {
    if m == 0 then {} else CandidateSet(base, m - 1) + {Candidate(base, m)}
  }

  lemma {:induction false} CandidateSetSize(base: string, m: nat)
    ensures |CandidateSet(base, m)| == m
  {
    if m > 0 {
      CandidateSetSize(base, m - 1);
      CandidateNotEarlier(base, m, m - 1);
    }
  }

  /** A candidate is not among the candidates of smaller suffixes. */
  lemma {:induction false} CandidateNotEarlier(base: string, m: nat, k: nat)
    requires k < m
    ensures Candidate(base, m) !in CandidateSet(base, k)
  {
    if k > 0 {
      CandidateNotEarlier(base, m, k - 1);
      if Candidate(base, m) == Candidate(base, k) {
        CandidateInjective(base, m, k);
      }
    }
  }

  /** Pigeonhole: `taken` cannot hold more distinct candidates than it has elements. */
  lemma CandidatesFitIn(base: string, taken: set<string>, m: nat)
    requires forall j :: 1 <= j <= m ==> Candidate(base, j) in taken
    ensures m <= |taken|
  {
    CandidateSetSize(base, m);
    CandidateSetWithin(base, taken, m);
    SubsetCardinality(CandidateSet(base, m), taken);
  }

  lemma {:induction false} CandidateSetWithin(base: string, taken: set<string>, m: nat)
    requires forall j :: 1 <= j <= m ==> Candidate(base, j) in taken
    ensures CandidateSet(base, m) <= taken
  {
    if m > 0 {
      CandidateSetWithin(base, taken, m - 1);
    }
  }

  lemma SubsetCardinality<T>(a: set<T>, b: set<T>)
    requires a <= b
    ensures |a| <= |b|
  {
    assert b == a + (b - a);
  }

  /** `k` is the least suffix from 1 whose candidate is not in `taken`. */
  predicate IsLeastFree(base: string, taken: set<string>, k: nat) {
    && k >= 1
    && Candidate(base, k) !in taken
    && forall j :: 1 <= j < k ==> Candidate(base, j) in taken
  }

  /** At most one suffix is the least free one. */
  lemma LeastFreeUnique(base: string, taken: set<string>, j: nat, k: nat)
    requires IsLeastFree(base, taken, j) && IsLeastFree(base, taken, k)
    ensures j == k
  {
  }

  lemma CandidateDiffersFromBase(base: string, k: nat)
    ensures Candidate(base, k) != base
  {
    assert |Candidate(base, k)| > |base|;
  }

  /** The loop of src/lib/models/Article.ts:95-101, started at `counter = k`
      with every smaller candidate already known to be taken. It examines at
      most `|taken| + 1` candidates. */
  function ProbeFrom(base: string, taken: set<string>, k: nat): (r: nat)
    requires k >= 1
    requires forall j :: 1 <= j < k ==> Candidate(base, j) in taken
    ensures IsLeastFree(base, taken, r)
    ensures k <= r <= |taken| + 1
    decreases |taken| + 1 - k
  {
    if Candidate(base, k) !in taken then
      CandidatesFitIn(base, taken, k - 1);
      k
    else
      CandidatesFitIn(base, taken, k);
      ProbeFrom(base, taken, k + 1)
  }
}

=== FILE: text.dfy ===
/** Character classes, trimming and number formatting with the meaning they
    have in ECMAScript (`\s`, `String.prototype.trim`, `Number.prototype.toString`). */
module Text {

  /** A code point of ECMAScript's WhiteSpace or LineTerminator productions:
      exactly what `\s` matches and what `trim()` removes. */
  predicate IsJsSpace(c: char) {
    if c < '\U{A0}' then c == ' ' || '\t' <= c <= '\r'
    else
      || c == '\U{A0}' || c == '\U{1680}' || '\U{2000}' <= c <= '\U{200A}' || c == '\U{2028}' || c == '\U{2029}'
      || c == '\U{202F}' || c == '\U{205F}' || c == '\U{3000}' || c == '\U{FEFF}'
  }

  predicate IsDigit(c: char) { '0' <= c <= '9' }

  predicate IsLowerLetter(c: char) { 'a' <= c <= 'z' }

  predicate IsUpperLetter(c: char) { 'A' <= c <= 'Z' }

  /** Hexadecimal digit of either case, as the class `[0-9a-fA-F]`. */
  predicate IsHexDigit(c: char) { IsDigit(c) || 'a' <= c <= 'f' || 'A' <= c <= 'F' }

  /** Characters of the class `[a-z0-9-]`. */
  predicate IsSlugChar(c: char) { IsLowerLetter(c) || IsDigit(c) || c == '-' }

  predicate AllSlugChars(s: string) {
    forall i :: 0 <= i < |s| ==> IsSlugChar(s[i])
  }

  predicate NoJsSpace(s: string) {
    forall i :: 0 <= i < |s| ==> !IsJsSpace(s[i])
  }

  /** `toLowerCase` restricted to ASCII: other code points are left as they are. */
  function ToLowerAscii(c: char): char {
    if IsUpperLetter(c) then (c as int + 32) as char else c
  }

  function ToUpperAscii(c: char): char {
    if IsLowerLetter(c) then (c as int - 32) as char else c
  }

  function LowerAscii(s: string): (r: string)
    ensures |r| == |s|
    ensures forall i :: 0 <= i < |s| ==> r[i] == ToLowerAscii(s[i])
  {
    if |s| == 0 then [] else [ToLowerAscii(s[0])] + LowerAscii(s[1..])
  }

  /** `field.charAt(0).toUpperCase() + field.slice(1)`. */
  function Capitalize(s: string): (r: string)
    ensures |r| == |s|
    ensures |s| > 0 ==> r[0] == ToUpperAscii(s[0]) && r[1..] == s[1..]
  {
    if |s| == 0 then [] else [ToUpperAscii(s[0])] + s[1..]
  }

  function TrimStart(s: string): (r: string)
    ensures |r| <= |s|
    ensures |r| == 0 || !IsJsSpace(r[0])
  {
    if |s| > 0 && IsJsSpace(s[0]) then TrimStart(s[1..]) else s
  }

  /** `TrimStart` keeps a suffix of its argument. */
  lemma {:induction false} TrimStartIsSuffix(s: string)
    ensures TrimStart(s) == s[|s| - |TrimStart(s)|..]
  {
    if |s| > 0 && IsJsSpace(s[0]) {
      TrimStartIsSuffix(s[1..]);
    }
  }

  /** Everything `TrimStart` drops is white space. */
  lemma {:induction false} TrimStartDropsSpace(s: string)
    ensures forall i :: 0 <= i < |s| - |TrimStart(s)| ==> IsJsSpace(s[i])
  {
    if |s| > 0 && IsJsSpace(s[0]) {
      TrimStartDropsSpace(s[1..]);
      assert forall i :: 1 <= i < |s| ==> s[i] == s[1..][i - 1];
    }
  }

  function TrimEnd(s: string): (r: string)
    ensures |r| <= |s| && r == s[..|r|]
    ensures |r| == 0 || !IsJsSpace(r[|r| - 1])
  {
    if |s| > 0 && IsJsSpace(s[|s| - 1]) then TrimEnd(s[..|s| - 1]) else s
  }

  /** Everything `TrimEnd` drops is white space. */
  lemma {:induction false} TrimEndDropsSpace(s: string)
    ensures forall i :: |TrimEnd(s)| <= i < |s| ==> IsJsSpace(s[i])
  {
    if |s| > 0 && IsJsSpace(s[|s| - 1]) {
      TrimEndDropsSpace(s[..|s| - 1]);
    }
  }

  /** `String.prototype.trim`: the longest infix of `s` that neither starts
      nor ends with white space. */
  function Trim(s: string): (r: string)
    ensures |r| <= |s|
    ensures |r| > 0 ==> !IsJsSpace(r[0]) && !IsJsSpace(r[|r| - 1])
  {
    var t := TrimStart(s);
    var r := TrimEnd(t);
    assert |r| > 0 ==> r[0] == t[0];
    r
  }

  /** Trimming empties exactly the all-white-space strings. */
  lemma TrimEmptyIffAllSpace(s: string)
    ensures |Trim(s)| == 0 <==> forall i :: 0 <= i < |s| ==> IsJsSpace(s[i])
  {
    var t := TrimStart(s);
    TrimStartIsSuffix(s);
    TrimStartDropsSpace(s);
    TrimEndDropsSpace(t);
    assert |Trim(s)| > 0 ==> Trim(s)[0] == t[0];
    if |Trim(s)| == 0 {
      assert forall i :: |s| - |t| <= i < |s| ==> s[i] == t[i - (|s| - |t|)];
    }
  }

  /** A string without white space is its own trim. */
  lemma TrimFixesNoSpace(s: string)
    requires NoJsSpace(s)
    ensures Trim(s) == s
  {
    assert TrimStart(s) == s;
  }

  /** Trimming leaves a string alone when its ends are not white space. */
  lemma TrimFixesSolidEnds(s: string)
    requires |s| > 0 && !IsJsSpace(s[0]) && !IsJsSpace(s[|s| - 1])
    ensures Trim(s) == s
  {
    assert TrimStart(s) == s;
  }

  lemma TrimIdempotent(s: string)
    ensures Trim(Trim(s)) == Trim(s)
  {
    if |Trim(s)| > 0 {
      TrimFixesSolidEnds(Trim(s));
    }
  }

  /** How many UTF-16 code units JavaScript stores for `c`: a code point
      above U+FFFF takes a surrogate pair. */
  function CodeUnits(c: char): nat {
    if c as int > 0xFFFF then 2 else 1
  }

  /** `s.length` in JavaScript, which counts UTF-16 code units rather than
      code points; every length limit of the schemas and of the form
      validator is measured this way. */
  function JsLength(s: string): (n: nat)
    ensures |s| <= n <= 2 * |s|
  {
    if |s| == 0 then 0 else CodeUnits(s[0]) + JsLength(s[1..])
  }

  /** The length of a concatenation is the sum of the lengths. */
  lemma {:induction false} JsLengthAppend(a: string, b: string)
    ensures JsLength(a + b) == JsLength(a) + JsLength(b)
  {
    if |a| == 0 {
      assert a + b == b;
    } else {
      assert (a + b)[0] == a[0];
      assert (a + b)[1..] == a[1..] + b;
      JsLengthAppend(a[1..], b);
    }
  }

  /** JavaScript's length agrees with the number of code points exactly
      when no code point lies outside the Basic Multilingual Plane. */
  lemma {:induction false} JsLengthIsSizeIffBasicPlane(s: string)
    ensures JsLength(s) == |s| <==> forall i :: 0 <= i < |s| ==> CodeUnits(s[i]) == 1
  {
    if |s| > 0 {
      JsLengthIsSizeIffBasicPlane(s[1..]);
      assert forall i :: 1 <= i < |s| ==> s[i] == s[1..][i - 1];
    }
  }

  /** One emoji is two units long in JavaScript. */
  lemma EmojiIsTwoUnits()
    ensures |"\U{1F600}"| == 1 && JsLength("\U{1F600}") == 2
  {
  }

  /** The digit character of value `d` in radix 36, lower-case as JavaScript prints it. */
  function DigitChar(d: nat): (c: char)
    requires d < 36
    ensures IsDigit(c) || IsLowerLetter(c)
    ensures d < 10 <==> IsDigit(c)
    ensures d < 16 ==> IsHexDigit(c)
  {
    if d < 10 then ('0' as int + d) as char else ('a' as int + d - 10) as char
  }

  /** Inverse of `DigitChar` on the base-36 alphabet. */
  function DigitValue(c: char): nat {
    if IsDigit(c) then c as int - '0' as int
    else if IsLowerLetter(c) then c as int - 'a' as int + 10
    else 0
  }

  lemma DigitValueOfChar(d: nat)
    requires d < 36
    ensures DigitValue(DigitChar(d)) == d
  {
  }

  /** Digits of `n` in `radix`, most significant first, no leading zeros. */
  function NatToRadix(n: nat, radix: nat): (r: string)
    requires 2 <= radix <= 36
    ensures |r| >= 1
    ensures forall i :: 0 <= i < |r| ==> IsDigit(r[i]) || IsLowerLetter(r[i])
    ensures radix <= 10 ==> forall i :: 0 <= i < |r| ==> IsDigit(r[i])
  {
    if n < radix then [DigitChar(n)]
    else
      DivideByRadix(n, radix);
      var q, d := n / radix, n % radix;
      NatToRadix(q, radix) + [DigitChar(d)]
  }

  /** Reads back a digit string written by `NatToRadix`. */
  function ParseRadix(s: string, radix: nat): nat {
    if |s| == 0 then 0
    else ParseRadix(s[..|s| - 1], radix) * radix + DigitValue(s[|s| - 1])
  }

  lemma DivideByRadix(n: nat, radix: nat)
    requires 2 <= radix <= n
    ensures n / radix < n && n % radix < radix
    ensures (n / radix) * radix + n % radix == n
  {
  }

  lemma {:induction false} ParseNatToRadix(n: nat, radix: nat)
    requires 2 <= radix <= 36
    ensures ParseRadix(NatToRadix(n, radix), radix) == n
  {
    var s := NatToRadix(n, radix);
    if n < radix {
      DigitValueOfChar(n);
      assert s[..|s| - 1] == [];
    } else {
      var q, d := n / radix, n % radix;
      DivideByRadix(n, radix);
      var p := NatToRadix(q, radix);
      assert s == p + [DigitChar(d)];
      assert s[..|s| - 1] == p;
      ParseNatToRadix(q, radix);
      DigitValueOfChar(d);
      assert ParseRadix(s, radix) == q * radix + d;
    }
  }

  lemma NatToRadixInjective(m: nat, n: nat, radix: nat)
    requires 2 <= radix <= 36
    requires NatToRadix(m, radix) == NatToRadix(n, radix)
    ensures m == n
  {
    ParseNatToRadix(m, radix);
    ParseNatToRadix(n, radix);
  }

  /** `Number.prototype.toString(radix)` on an integer value: a minus sign
      for negatives, then the digits of the magnitude. */
  function IntToRadix(i: int, radix: nat): (r: string)
    requires 2 <= radix <= 36
    ensures |r| >= 1
    ensures AllSlugChars(r)
    ensures i >= 0 ==> r == NatToRadix(i, radix)
  {
    if i < 0 then "-" + NatToRadix(-i, radix) else NatToRadix(i, radix)
  }

  /** Only negative numbers are printed with a leading minus sign. */
  lemma IntToRadixSign(i: int, radix: nat)
    requires 2 <= radix <= 36
    ensures IntToRadix(i, radix)[0] == '-' <==> i < 0
  {
    if i >= 0 {
      var r := NatToRadix(i, radix);
      assert IsDigit(r[0]) || IsLowerLetter(r[0]);
    }
  }

  /** Different integers print differently. */
  lemma IntToRadixInjective(i: int, j: int, radix: nat)
    requires 2 <= radix <= 36
    requires IntToRadix(i, radix) == IntToRadix(j, radix)
    ensures i == j
  {
    IntToRadixSign(i, radix);
    IntToRadixSign(j, radix);
    if i < 0 {
      assert NatToRadix(-i, radix) == IntToRadix(i, radix)[1..];
      assert NatToRadix(-j, radix) == IntToRadix(j, radix)[1..];
      NatToRadixInjective(-i, -j, radix);
    } else {
      NatToRadixInjective(i, j, radix);
    }
  }

  /** `String(i)` for an integer `i`. */
  function IntToString(i: int): (r: string)
    ensures |r| >= 1 && AllSlugChars(r)
    ensures i >= 0 ==> forall k :: 0 <= k < |r| ==> IsDigit(r[k])
  {
    IntToRadix(i, 10)
  }

  lemma IntToStringInjectiveOnNat(m: nat, n: nat)
    requires IntToString(m) == IntToString(n)
    ensures m == n
  {
    NatToRadixInjective(m, n, 10);
  }

  type Byte = b: int | 0 <= b < 256

  /** `Buffer.toString('hex')`: two lower-case hex digits per byte. */
  function BytesToHex(bs: seq<Byte>): (r: string)
    ensures |r| == 2 * |bs|
    ensures forall i :: 0 <= i < |r| ==> IsHexDigit(r[i]) && (IsDigit(r[i]) || IsLowerLetter(r[i]))
  {
    if |bs| == 0 then []
    else [DigitChar(bs[0] / 16), DigitChar(bs[0] % 16)] + BytesToHex(bs[1..])
  }

  /** Reads hex text back into bytes, two digits at a time. */
  function HexToBytes(s: string): seq<int> {
    if |s| < 2 then [] else [DigitValue(s[0]) * 16 + DigitValue(s[1])] + HexToBytes(s[2..])
  }

  /** `Buffer.toString('hex')` loses nothing: its text reads back as the bytes. */
  lemma {:induction false} HexRoundTrip(bs: seq<Byte>)
    ensures HexToBytes(BytesToHex(bs)) == bs
  {
    if |bs| > 0 {
      var h := BytesToHex(bs);
      assert h[2..] == BytesToHex(bs[1..]);
      DigitValueOfChar(bs[0] / 16);
      DigitValueOfChar(bs[0] % 16);
      HexRoundTrip(bs[1..]);
    }
  }
}

=== FILE: wrappers.dfy ===
/** Option and Result types standing in for JavaScript's `undefined`/`null`
    and for rejected promises. */
module Wrappers {

  datatype Option<+T> = None | Some(value: T) {

    /** The value, or `default` when absent. */
    function GetOr(default: T): T {
      match this
      case Some(v) => v
      case None => default
    }
  }

  datatype Result<+T, +E> = Success(value: T) | Failure(error: E)
}
